=== FILE: README.md ===
# Uchu server core, modelled in Dafny

Uchu is a server emulator for a multiplayer game. This project models the
dispatch and coordination core of its servers and proves properties of
that model.

- **Handler registry** (`Registry`). The registry `StartAsync` builds from
  the handler groups of the server assembly and then the game assembly.
  Packet handlers are keyed by (connection type, packet id). Command
  handlers are keyed by (prefix, signature). A later registration replaces
  an earlier one.
- **Frame routing** (`PacketDispatch`). `HandlePacketAsync` refuses frames
  that are not application packets. It hands game messages (packet id
  0x05) to the subscribers of the game-message event, and every other
  packet to its registered handler, or drops it.
- **Text commands** (`Commands`). `HandleCommandAsync` selects a group by
  prefix and a handler by the lower-cased first word. An unknown word gets
  the help listing. A caller below the handler's level is refused. Arguments
  are chosen by arity, and the return value is normalised.
- **Start-up request completion** (`Startup`). A world server started for a
  request marks that request `Complete`.
- **World-server allocation** (`ServerHelper`). `RequestWorldServerAsync`
  reuses a world server of the zone with room. Otherwise it files a request
  and polls it up to 1000 times, settling on `Complete`, `Error` or
  timeout. What each poll reads (the request's state and the specification
  table) is an input sequence.
- **Session cache** (`DatabaseCache`, `Base64`). Sessions are rows keyed by
  a Base64 key of 24 random bytes with the padding trimmed (RFC 4648
  section 4, standard alphabet). The endpoint-to-key binding sits beside
  them. The random bytes are an input.
- **Listener lists** (`Events`). `EventBase<T>` supports append, removal,
  clearing and in-order invocation.
- **Bounded random identifiers** (`Utils`). `RandomLong`,
  `GenerateObjectId` and `GenerateSpawnerId` are modelled with C#'s 64-bit
  wrap-around, truncating `%` and `Math.Abs` overflow. The 64-bit draw is
  an input.
- **Bit-stream codecs** (`BitStream`, `GameMessages`, `Interrupt`):
  - the `MoveItemInInventory` decoder;
  - the `TeamAddPlayer` encoder, with a matching reader used to state its
    round trip;
  - the bits the interrupt behaviour reads and echoes.

## How the system is represented

**Failures.** An operation that throws in C# returns `Err(fault)` of the
`Result` type in `Outcomes`. This covers `First`/`FirstAsync` on nothing,
a missing dictionary key, `Dictionary.Add` of a present key, reading past
the end of a stream, and `long.MinValue % -1`. A value that may be absent
is an `Option`.

**Dictionaries.** `Table.Dict` is a sequence of entries. It keeps the
enumeration order of a .NET `Dictionary`: a new key is added at the end,
and an overwrite replaces the value in place. The help listing enumerates
`group.Values` in exactly this order.

**Streams.** A bit stream is a sequence of typed fields: a bit, `int`,
`long`, `ushort` or wide string. Reading past the end throws. The stream
library itself does not know field types and would read the next bits as
whatever type is asked for; in the model a read whose next field has
another type fails too, with the same fault, and so stands in for reading
a stream that was not written in the layout the reader expects.

**Code outside the model.** Handler, decoder and subscriber bodies are
represented by functions saying whether each throws. A command handler
is represented by the value it returns.

**The game-message event.** The event is a multicast delegate invoked
once (Uchu.Core/Server.cs:312), so its subscribers run in order. The first
one that throws ends the invocation, and the single `catch` around it logs
the exception; the subscribers after it do not run.
`PacketDispatch.SubscribersRunInOrder` states exactly this.

## Model

| member | source | states |
|---|---|---|
| Registry.BindingOf | Uchu.Core/Server.cs:234-280 | Static and abstract methods, packet handlers whose first parameter is not a packet, and methods with neither attribute bind nothing. A packet handler's key is the attribute's override where present, else the packet type's default. A command handler is filed under the attribute's prefix and signature, and is console-eligible exactly when it does not take two parameters |
| Registry.Register | Uchu.Core/Server.cs:234-281 | A method that binds nothing leaves the registry alone. A packet binding leaves the command table alone and its key then yields the new handler; a command binding likewise leaves the packet table alone |
| Registry.RegisterAll | Uchu.Core/Server.cs:228-283 | Methods that bind no packet handler leave the packet table unchanged, and methods that bind no command leave the command table unchanged |
| Registry.RegisterAssembly | Uchu.Core/Server.cs:224-284 | Registering an assembly keeps every command handler filed under its own signature |
| Registry.StartupRegistry | Uchu.Core/Server.cs:138-139 | The start-up registry registers the server's methods, then the game's, in one sequence, and every command handler in it sits under its own signature |
| Registry.PacketHandler | Uchu.Core/Server.cs:327-328 | The lookup misses iff the connection type has no table or that table lacks the packet id; a hit is an entry stored under the id |
| Registry.CommandFor | Uchu.Core/Server.cs:357-365 | The lookup misses iff the prefix has no group or that group lacks the signature; a hit is an entry stored under the signature |
| Registry.RegisterPacketStep | Uchu.Core/Server.cs:247-262 | Registering one method changes the packet lookup at its own key only, and there it yields the new handler |
| Registry.RegisterCommandStep | Uchu.Core/Server.cs:269-280 | Registering one method changes the command lookup at its own (prefix, signature) only, and there it yields the new handler |
| Registry.PacketLastWins | Uchu.Core/Server.cs:244-262 | After registering a list of methods, a packet key maps to the handler of the last method bound to it, or keeps its earlier value if none is |
| Registry.CommandLastWins | Uchu.Core/Server.cs:269-280 | After registering a list of methods, a command key maps to the handler of the last method bound to it, or keeps its earlier value if none is |
| Registry.RegisterAllAppend | Uchu.Core/Server.cs:138-139 | Registering two lists in turn equals registering their concatenation |
| Registry.StartupIsRegisterAll | Uchu.Core/Server.cs:138-139 | The start-up registry is the empty registry with the server's methods registered, then the game's |
| Registry.StartupPacketLastWins | Uchu.Core/Server.cs:138-139 | At start-up a packet key is unbound iff no method binds it; otherwise a game method overrides a server method with the same key, and the last one wins |
| Registry.RegisterAllKeyed | Uchu.Core/Server.cs:272-278 | Registration files every command handler under the signature it carries |
| Registry.StartupCommandsKeyed | Uchu.Core/Server.cs:272-278 | In the start-up registry every command handler sits under its own signature |
| Table.GetSpec | Uchu.Core/Server.cs:327-328 | `TryGetValue` misses exactly when the key is absent, and a hit returns a stored entry |
| Table.Get | Uchu.Core/Server.cs:327-328 | A hit returns the value of an entry stored under the key |
| Table.Put | Uchu.Core/Server.cs:257 | After the write the key yields the written value |
| Table.PutExisting | Uchu.Core/Server.cs:257 | Overwriting a present key keeps the key order |
| Table.PutNew | Uchu.Core/Server.cs:257 | Writing an absent key appends it at the end |
| Table.GetPutOther | Uchu.Core/Server.cs:257 | A write leaves the lookup of every other key unchanged |
| Table.PutKeepsDistinct | Uchu.Core/Server.cs:272 | Writes keep the keys distinct |
| Table.GetNestedPutOther | Uchu.Core/Server.cs:247-250 | A write through the two-level map leaves every other pair's lookup unchanged |
| PacketDispatch.HandlePacket | Uchu.Core/Server.cs:286-349 | It throws before anything runs iff the header is not a user packet. A game message succeeds iff its payload starts with a `long` and a `ushort`; the outcome then carries exactly those two values and the fields after them. Any other packet never throws: it is dropped iff its key has no handler, and otherwise the registered handler is used. The handler is invoked iff the decoder accepts the payload, and an exception is caught iff the decoder rejects it or the handler throws |
| PacketDispatch.GameMessagesIgnoreRegistry | Uchu.Core/Server.cs:299-321 | A game message is never looked up in the handler registry: the outcome is the same under any registry |
| PacketDispatch.SubscribersRunInOrder | Uchu.Core/Server.cs:308-318 | Game-message subscribers run as an in-order prefix. An exception is caught iff some subscriber throws. When none throws all of them ran; otherwise exactly the subscribers up to and including the first that throws ran |
| PacketDispatch.InvokeRunsPrefix | Uchu.Core/Server.cs:312 | Invoking the subscriber list runs all of it when nothing throws, and otherwise exactly the subscribers up to and including the first that throws |
| PacketDispatch.InvokeStopsAtThrower | Uchu.Core/Server.cs:312 | When the invocation throws, some subscriber k throws, none before it does, and the subscribers that ran are exactly the first k + 1 |
| PacketDispatch.StartupRouting | Uchu.Core/Server.cs:327-343 | With the start-up registry, a regular frame is dropped iff no method binds its key; otherwise it goes to the last method bound to it |
| Commands.WordsOf | Uchu.Core/Server.cs:359-363 | The remainder of the command after its prefix splits into at least one word |
| Commands.PrefixOf | Uchu.Core/Server.cs:355 | `FirstOrDefault` gives the first character, or `'\0'` for an empty command |
| Commands.Spaces | Uchu.Core/Server.cs:374 | `Enumerable.Repeat` of a negative count throws; otherwise it gives exactly that many spaces |
| Commands.Listing | Uchu.Core/Server.cs:369-372 | The handlers listed to a caller are those of the group, in order, whose level the caller meets and, for the console, that are console commands |
| Commands.HelpLine | Uchu.Core/Server.cs:373-375 | A help line fails iff the signature is longer than 20. Otherwise it is the prefix, then the signature padded with spaces to 20 characters, then the help text and a line break |
| Commands.Help | Uchu.Core/Server.cs:367-378 | The listing fails iff a listed handler's signature is too long, and is empty iff no handler is listed. Otherwise it is the help lines of exactly the listed handlers, concatenated in the group's order. A handler is listed iff its level is at most the caller's, and for the console only if it is a console command |
| Commands.ArgumentsFor | Uchu.Core/Server.cs:385-392 | A handler with no parameters gets nothing, one with one parameter gets the words, one with two gets the words and the author, and any more parameters throw |
| Commands.Dispatch | Uchu.Core/Server.cs:351-392 | A null command, or a prefix with no group, gives null, and an empty command with a group for `'\0'` throws. A miss on the lower-cased first word gives the group's help listing, or its failure. A hit below the handler's level is refused. Otherwise the handler found is invoked with the arguments its arity selects, exactly when it has at most two parameters |
| Commands.Reply | Uchu.Core/Server.cs:394-405 | A string comes back verbatim and a string task gives its awaited result, null included. Null, a plain task or any other value gives an empty string, and a handler exception propagates |
| Commands.HandleCommand | Uchu.Core/Server.cs:351-406 | A null command or an unknown prefix gives null and a refused caller gets exactly the permission message. A help listing is the reply, an invoked handler's return value is normalised as `Reply` says, a dispatch failure propagates, and a handler fault arises only from an invocation |
| Commands.FoundUnderSignature | Uchu.Core/Server.cs:272-278 | A handler found in a registered group is the one whose signature is the lookup word |
| Commands.ArgumentsAreRestOfLine | Uchu.Core/Server.cs:359-390 | An invoked command is its prefix followed by the space-joined words. The first word lower-cases to the handler's signature and the remaining words are exactly the arguments passed |
| Commands.InvokedSignatureIsLower | Uchu.Core/Server.cs:365 | Only handlers whose signature is already lower case can ever be invoked |
| Text.JoinSplit | Uchu.Core/Server.cs:363 | Joining the parts of `Split(' ')` with the separator restores the string |
| Text.SplitJoin | Uchu.Core/Server.cs:363 | Splitting a join of separator-free parts gives the parts back |
| Text.Split | Uchu.Core/Server.cs:363 | `Split(' ')` gives at least one part, and no part contains the separator |
| Text.ToLower | Uchu.Core/Server.cs:365 | Lower-casing keeps the length and maps each character on its own |
| Text.ToLowerIsLower | Uchu.Core/Server.cs:365 | Lower-casing leaves no upper-case letter, is the identity on lower-case strings, and is idempotent |
| Startup.RequestFor | Uchu.Core/Server.cs:168 | The request found is the first whose specification id is the server's id; none is found iff no request names the server |
| Startup.CompleteOwnRequest | Uchu.Core/Server.cs:166-184 | The server's first request becomes `Complete` and every other row and the specifications stay unchanged; with no such request, the store is unchanged |
| Startup.CompleteOwnRequestIdempotent | Uchu.Core/Server.cs:166-184 | Completing twice is the same as completing once |
| Startup.CompletionHandsOver | Uchu.Core/Utilities/ServerHelper.cs:73-93 | Once the started server has completed the request, the requester's next read returns the server's specification and removes exactly that request |
| Records.RequestIndex | Uchu.Core/Utilities/ServerHelper.cs:56-58 | `FirstAsync(r => r.Id == id)` finds the first row with that id, and finds nothing iff no row has it |
| Records.SpecificationIndex | Uchu.Core/Utilities/ServerHelper.cs:91 | `FirstAsync(s => s.Id == ...)` finds the first specification with that id, and finds nothing iff none has it |
| ServerHelper.FindWorldServer | Uchu.Core/Utilities/ServerHelper.cs:16-23 | The reused server is the first world server of the zone with fewer active users than its maximum; none is found iff no server has room |
| ServerHelper.RequestWorldServer | Uchu.Core/Utilities/ServerHelper.cs:10-98 | A server with room is returned with the store untouched and nothing polled. Any server returned without polling has room, the request is read at most 1000 times, and a request id already in the table is a key violation |
| ServerHelper.PollLoop | Uchu.Core/Utilities/ServerHelper.cs:46-98 | The loop reads the request between 1 and 1000 times. A returned specification is in the table as the loop leaves it, and the table stays as it was when no observation is left |
| ServerHelper.FirstDecisive | Uchu.Core/Utilities/ServerHelper.cs:64-72 | Locates the first observation that is not `Unanswered`/`Answered`: every earlier one is waiting |
| ServerHelper.FiledRequestIsLast | Uchu.Core/Utilities/ServerHelper.cs:33-39 | The freshly filed request is found at the end of the table |
| ServerHelper.PollStep | Uchu.Core/Utilities/ServerHelper.cs:54-79 | A waiting read records the state and the table it saw and polls again with one read fewer; a decisive read settles the outcome |
| ServerHelper.PollLoopTimesOut | Uchu.Core/Utilities/ServerHelper.cs:96-98 | With no decisive read within the budget, the loop gives up after exactly 1000 reads and leaves the request, still waiting, at the end of the table, with the specification table the last read saw |
| ServerHelper.PollLoopSettles | Uchu.Core/Utilities/ServerHelper.cs:64-93 | The loop's result is decided by the first decisive read alone, at that read's number |
| ServerHelper.PollLoopOutcome | Uchu.Core/Utilities/ServerHelper.cs:46-98 | The loop either times out or settles on the first decisive read, whichever the observations give |
| ServerHelper.AllocationOutcome | Uchu.Core/Utilities/ServerHelper.cs:29-98 | With no server to reuse, one request is filed. The allocation then times out leaving it in place, or settles on the first decisive read: a vanished request throws. `Complete` removes it and returns its specification as the table at that read holds it, or throws when the table has none. `Error` or another state returns null and leaves it |
| ServerHelper.UnansweredTimesOut | Uchu.Core/Utilities/ServerHelper.cs:46-98 | A request nobody answers times out after 1000 reads and stays in the table, and the specifications are untouched |
| ServerHelper.ErrorStopsAtOnce | Uchu.Core/Utilities/ServerHelper.cs:75-76 | An `Error` on the first read returns null after one read, whatever would have come later, and leaves the request in the table |
| ServerHelper.CompleteReturnsSpecification | Uchu.Core/Utilities/ServerHelper.cs:73-93 | A `Complete` after waiting reads removes the request and counts the reads. It returns the named specification from the table at that read, and throws when that table has none |
| ServerHelper.FirstDecisiveIs | Uchu.Core/Utilities/ServerHelper.cs:64-72 | The first non-waiting observation is the one `FirstDecisive` finds |
| Base64.Value | Uchu.Core/Cache/DatabaseCache.cs:111 | Digit values invert the standard alphabet |
| Base64.Chars | Uchu.Core/Cache/DatabaseCache.cs:111 | The unpadded encoding has (4n + 2) / 3 characters, all from the alphabet |
| Base64.Encode | Uchu.Core/Cache/DatabaseCache.cs:111 | `Convert.ToBase64String` output has 4 characters per started group of three bytes |
| Base64.TrimEnd | Uchu.Core/Cache/DatabaseCache.cs:111 | `TrimEnd` gives a prefix that does not end in the character and drops only that character |
| Base64.TrimPadding | Uchu.Core/Cache/DatabaseCache.cs:111 | Trimming `=` from the padded encoding leaves exactly the unpadded digits |
| Base64.GenerateKey | Uchu.Core/Cache/DatabaseCache.cs:105-112 | A key has (4n + 2) / 3 characters from the standard alphabet and no `=` |
| Base64.KeyOf24Bytes | Uchu.Core/Cache/DatabaseCache.cs:105-112 | A key of 24 bytes has 32 characters and needed no trimming |
| Base64.DecodeChars | Uchu.Core/Cache/DatabaseCache.cs:111 | Decoding the unpadded digits gives the bytes back |
| Base64.KeyRoundTrip | Uchu.Core/Cache/DatabaseCache.cs:105-112 | Decoding a key gives back the bytes it was made from |
| Base64.KeyInjective | Uchu.Core/Cache/DatabaseCache.cs:105-112 | Distinct byte strings give distinct keys |
| DatabaseCache.CreateSession | Uchu.Core/Cache/DatabaseCache.cs:20-35 | A 32-character key not yet used is returned, with one new row holding the user and unset character and zone. Other rows and the bindings are unchanged, and a key already present violates the table's key |
| DatabaseCache.BoundRow | Uchu.Core/Cache/DatabaseCache.cs:41-43 | An unbound endpoint throws a missing-key exception, and a binding to a deleted row throws from `First` |
| DatabaseCache.SetCharacter | Uchu.Core/Cache/DatabaseCache.cs:37-48 | Fails as the endpoint lookup does. Otherwise only the character of the endpoint's row changes |
| DatabaseCache.SetZone | Uchu.Core/Cache/DatabaseCache.cs:50-61 | Fails as the endpoint lookup does. Otherwise only the zone of the endpoint's row changes |
| DatabaseCache.GetSession | Uchu.Core/Cache/DatabaseCache.cs:63-78 | Fails as the endpoint lookup does. Otherwise it returns the endpoint's key with that row's user, character and zone |
| DatabaseCache.IsKey | Uchu.Core/Cache/DatabaseCache.cs:80-85 | Whether some session row carries the key, bound to an endpoint or not; `CreateThenIsKey`, `IsKeyFrame` and `DeleteThenAccess` tie it to the operations. For an endpoint bound to the key, it holds iff the endpoint's session lookups succeed |
| DatabaseCache.RegisterKey | Uchu.Core/Cache/DatabaseCache.cs:87-90 | Binds a new endpoint to the key and leaves the other bindings and the rows alone; an endpoint already bound throws |
| DatabaseCache.DeleteSession | Uchu.Core/Cache/DatabaseCache.cs:92-103 | Fails as the endpoint lookup does. Otherwise it removes only the endpoint's row and keeps the binding |
| DatabaseCache.CreateRegisterGet | Uchu.Core/Cache/DatabaseCache.cs:20-90 | Create, then register, then get returns the new key with the user and unset character and zone |
| DatabaseCache.SetThenGet | Uchu.Core/Cache/DatabaseCache.cs:37-78 | A get after a set sees the new character or zone and everything else as before |
| DatabaseCache.CreateThenIsKey | Uchu.Core/Cache/DatabaseCache.cs:20-35 | A new session is refused iff its generated key is already a key. After a creation that key is a key, and every other string is a key exactly as before |
| DatabaseCache.IsKeyFrame | Uchu.Core/Cache/DatabaseCache.cs:37-90 | Binding an endpoint, or writing a session's character or zone, leaves the set of keys unchanged |
| DatabaseCache.DeleteThenAccess | Uchu.Core/Cache/DatabaseCache.cs:92-103 | After a delete the key is no longer a key, the binding remains, and get, set and a second delete throw |
| DatabaseCache.SetCharacterLastWins | Uchu.Core/Cache/DatabaseCache.cs:37-48 | Of two character updates, the second wins |
| Events.Actions | Uchu.World/Utilities/Event.cs:15 | The delegates of the array are exactly the delegates of its non-null slots |
| Events.AddListener | Uchu.World/Utilities/Event.cs:17-22 | The array grows by one slot, at the end, holding the listener; earlier slots are kept in order |
| Events.Clear | Uchu.World/Utilities/Event.cs:42-45 | The cleared array holds no delegate and no null slot |
| Events.Without | Uchu.World/Utilities/Event.cs:32-37 | The copy loop keeps exactly the slots not holding the listener |
| Events.Occurrences | Uchu.World/Utilities/Event.cs:26-28 | Counts the slots holding the listener, and is zero iff `Contains` is false |
| Events.RemoveListenerAsWritten | Uchu.World/Utilities/Event.cs:24-40 | Removal as written: an absent listener changes nothing. Otherwise the array shrinks by exactly one, the kept slots come first in order, and the remaining slots, one fewer than the listener's occurrences, are null |
| Events.RemoveListener | Uchu.World/Utilities/Event.cs:24-40 | Corrected removal: drops every occurrence, changes nothing if the listener is absent, and never introduces a null slot |
| Events.WithoutAbsent | Uchu.World/Utilities/Event.cs:26 | Removing a listener that is not present keeps every slot |
| Events.Invoke | Uchu.World/Utilities/Event.cs:50-56 | Runs at most one listener per slot; when nothing throws, exactly the delegates, in array order. A listener fault comes from the last listener that ran, and no listener before it throws |
| Events.FirstFailure | Uchu.World/Utilities/Event.cs:52-55 | Locates the first slot that is null or holds a throwing listener: every slot before it passes |
| Events.InvokeTrace | Uchu.World/Utilities/Event.cs:50-56 | The whole trace: the listeners before the first failing slot run in order; a throwing listener there runs too and ends the call with its exception, a null slot ends it with a null reference, and nothing after it runs |
| Events.InvokeSucceeds | Uchu.World/Utilities/Event.cs:61-67 | Invocation completes iff every slot holds a listener that does not throw |
| Events.InvokeNullFirst | Uchu.World/Utilities/Event.cs:61-67 | Invocation throws a null reference iff a null slot is reached before any listener throws |
| Events.InvokeFails | Uchu.World/Utilities/Event.cs:50-100 | The two characterisations above, for every invocation variant |
| Events.ClearForgets | Uchu.World/Utilities/Event.cs:42-45 | After `Clear` nothing runs, and a listener added afterwards runs alone |
| Events.AddedRunsLast | Uchu.World/Utilities/Event.cs:17-22 | An added listener runs after all the earlier ones |
| Events.AddThenRemove | Uchu.World/Utilities/Event.cs:17-40 | Removing a listener just added to a list without it restores the list |
| Events.WithoutAppend | Uchu.World/Utilities/Event.cs:32-37 | The kept slots of a concatenation are the kept slots of each part |
| Events.RemovedNeverRuns | Uchu.World/Utilities/Event.cs:24-40 | After the corrected removal from a list without null slots, the removed listener never runs and no null reference is thrown |
| Events.RanAreListeners | Uchu.World/Utilities/Event.cs:50-56 | Only listeners in the array ever run |
| Events.AsWrittenAgreesOnSingle | Uchu.World/Utilities/Event.cs:24-40 | For a listener registered at most once, the code as written and the corrected removal agree |
| Events.DuplicateRemovalLeavesNull | Uchu.World/Utilities/Event.cs:28-36 | A listener added twice and removed once leaves one null slot, and the next invocation throws; the corrected removal leaves an empty list that runs cleanly |
| Utils.Wrap | Uchu.Core/Utils.cs:20 | Unchecked `long` arithmetic agrees with the exact value modulo 2^64 and is exact in range |
| Utils.Rem | Uchu.Core/Utils.cs:20 | C#'s `%` truncates: the remainder is smaller than the divisor in magnitude, has the dividend's sign, and differs from the dividend by a multiple of the divisor |
| Utils.LongRem | Uchu.Core/Utils.cs:20 | `long` `%` throws a divide-by-zero iff the divisor is zero and overflows on `long.MinValue % -1`; otherwise it is the truncating remainder |
| Utils.LongAbs | Uchu.Core/Utils.cs:20 | `Math.Abs` throws iff given `long.MinValue` |
| Utils.RandomLong | Uchu.Core/Utils.cs:12-21 | An empty range divides by zero |
| Utils.RandomLongInRange | Uchu.Core/Utils.cs:12-21 | For min < max, every draw gives a value in [min, max), except the one overflowing draw of the widest range |
| Utils.RandomLongWidestRangeThrows | Uchu.Core/Utils.cs:20 | Over the widest range, the draw `long.MinValue` overflows |
| Utils.RandomLongCoversRange | Uchu.Core/Utils.cs:12-21 | Every value in a range that fits in a `long` is produced by some draw |
| Utils.GenerateObjectId | Uchu.Core/Utils.cs:23-24 | Object ids lie in [1000000000000000000, 1999999999999999999) |
| Utils.GenerateSpawnerId | Uchu.Core/Utils.cs:26-27 | Spawner ids lie in [70000000000000, 79999999999999) |
| BitStream.BitsAppend | Uchu.World/Packets/GameMessages/Client/MoveItemInInventoryMessage.cs:20-34 | The bit length of a concatenation is the sum of the parts' |
| BitStream.ReadBit | Uchu.World/Behaviors/InterruptBehavior.cs:30 | A read succeeds iff a bit is next, and the stream is that bit followed by what remains |
| BitStream.ReadInt32 | Uchu.World/Packets/GameMessages/Client/MoveItemInInventoryMessage.cs:24 | A read succeeds iff an `int` is next, and the stream is that field followed by what remains |
| BitStream.ReadInt64 | Uchu.World/Packets/GameMessages/Client/MoveItemInInventoryMessage.cs:27 | A read succeeds iff a `long` is next, and the stream is that field followed by what remains |
| BitStream.ReadUInt16 | Uchu.Core/Server.cs:306 | A read succeeds iff a `ushort` is next, and the stream is that field followed by what remains |
| BitStream.ReadWideString | Uchu.World/Packets/GameMessages/Server/TeamAddPlayerMessage.cs:28 | A read succeeds iff a wide string is next, and the stream is that field followed by what remains |
| GameMessages.EncodeMove | Uchu.World/Packets/GameMessages/Client/MoveItemInInventoryMessage.cs:20-34 | The wire form of a move message holds only fixed-width fields |
| GameMessages.DecodeMove | Uchu.World/Packets/GameMessages/Client/MoveItemInInventoryMessage.cs:20-34 | A successful decode consumes exactly the encoding of the message it returns; a failure is a read of a missing or mismatched field |
| GameMessages.ReadMoveHead | Uchu.World/Packets/GameMessages/Client/MoveItemInInventoryMessage.cs:22-25 | The destination is read only behind a set flag bit |
| GameMessages.ReadMoveBody | Uchu.World/Packets/GameMessages/Client/MoveItemInInventoryMessage.cs:27-33 | Item id, current inventory, response code and new slot are consumed in that order |
| GameMessages.MoveRoundTrip | Uchu.World/Packets/GameMessages/Client/MoveItemInInventoryMessage.cs:20-34 | Decoding an encoded message returns it and leaves what follows. The destination is present iff its flag bit is set, and otherwise stays `Invalid` |
| GameMessages.MoveBodyRoundTrip | Uchu.World/Packets/GameMessages/Client/MoveItemInInventoryMessage.cs:27-33 | Item id, current inventory, response code and new slot are read in that order |
| GameMessages.MoveBits | Uchu.World/Packets/GameMessages/Client/MoveItemInInventoryMessage.cs:22-33 | A move message occupies 193 bits with a destination and 161 without |
| GameMessages.DecodeMoveConsumes | Uchu.World/Packets/GameMessages/Client/MoveItemInInventoryMessage.cs:22-33 | A decode consumes 193 bits when the destination flag is set and 161 otherwise |
| GameMessages.SerializeTeamAddPlayer | Uchu.World/Packets/GameMessages/Server/TeamAddPlayerMessage.cs:18-33 | The layout: the three flagged booleans, then the object id, the name and a false bit, then a flag saying the world id is nonzero and, only then, its low 16 bits |
| GameMessages.FlagsPart | Uchu.World/Packets/GameMessages/Server/TeamAddPlayerMessage.cs:20-24 | Each flagged boolean is one bit, plus a value bit only when set |
| GameMessages.ReadFlaggedBool | Uchu.World/Packets/GameMessages/Server/TeamAddPlayerMessage.cs:20 | Reading a flagged boolean consumes a proper prefix of the stream, or fails at the end |
| GameMessages.FlaggedBoolRoundTrip | Uchu.World/Packets/GameMessages/Server/TeamAddPlayerMessage.cs:20 | A flag bit is followed by its value bit only when true, and reads back as written |
| GameMessages.FlagsRoundTrip | Uchu.World/Packets/GameMessages/Server/TeamAddPlayerMessage.cs:20-24 | The free-trial, local and no-loot flags read back in that order |
| GameMessages.PlayerRoundTrip | Uchu.World/Packets/GameMessages/Server/TeamAddPlayerMessage.cs:26-30 | The object id, then the wide name, then a constant false bit |
| GameMessages.WorldRoundTrip | Uchu.World/Packets/GameMessages/Server/TeamAddPlayerMessage.cs:32 | The world id is present iff nonzero, behind a flag bit saying so, as its low 16 bits |
| GameMessages.TeamAddPlayerRoundTrip | Uchu.World/Packets/GameMessages/Server/TeamAddPlayerMessage.cs:18-33 | Reading an announcement back gives every field, in the written order, and leaves what follows |
| GameMessages.WideWorldIdReadsAsZero | Uchu.World/Packets/GameMessages/Server/TeamAddPlayerMessage.cs:32 | A world id that is a nonzero multiple of 65536 is announced with the flag saying nonzero and the value 0 on the wire, and is read back as present with value 0 |
| Interrupt.Step | Uchu.World/Behaviors/InterruptBehavior.cs:30-32 | One step succeeds iff a bit is next; it consumes that bit and writes one false bit |
| Interrupt.Execute | Uchu.World/Behaviors/InterruptBehavior.cs:24-45 | The behaviour fails only at the end of the stream and does not change the context's target |
| Interrupt.BitCount | Uchu.World/Behaviors/InterruptBehavior.cs:28-44 | Between one and three bits are read |
| Interrupt.ExecuteReadsAndWrites | Uchu.World/Behaviors/InterruptBehavior.cs:28-44 | One bit is taken for a target other than the associate, one when blocks are not interrupted, and one always. The behaviour succeeds iff that many bits are next; it consumes them and writes as many false bits |
| Interrupt.ReplyIgnoresInput | Uchu.World/Behaviors/InterruptBehavior.cs:28-44 | The bits written do not depend on the bits read |

## Left out

- `ConfigureAsync` is not modelled: configuration files, certificates and the Redis fallback are I/O and environment set-up. So are `StopAsync`, `GetAddresses`, `GetHost` and the transport server itself.
- The console loop of `StartAsync` (Uchu.Core/Server.cs:145-160) reads standard input and is not modelled. `Commands.HandleCommand` is what it calls.
- Reflection is not modelled. Handler groups list their methods with the attributes and parameter shapes reflection would report, and `MethodInfo.Invoke` is replaced by a parameter saying whether the handler throws. `InvokeHandlerAsync` (Uchu.Core/Server.cs:408-418) is covered by that parameter.
- Reading the packet header is not modelled. The header is given as a record, and a frame too short for a header is not modelled.
- The handler's shared packet instance is not modelled. Neither is concurrent handling of frames, which may decode into that one instance at the same time.
- Faulting tasks of game-message subscribers are not modelled. Only synchronous exceptions are: the event awaits only the task of the last subscriber.
- `Task.Delay`, logging and `ConfigureAwait` have no observable effect on the model. The poll is modelled by its read count only.
- `Text.ToLower` lower-cases ASCII letters only. Culture-specific case mapping is not modelled.
- The bit order inside a field and the layout of a wide string belong to the stream library and are not modelled. That includes any length prefix or fixed length the library's `WriteString` uses. `GameMessages.PlayerRoundTrip` takes the name to come back as written.
- The base `ExecuteAsync` and `BuildAsync` of the interrupt behaviour are not modelled; `BuildAsync` reads parameters from the game database.
- `Environment.NewLine` is taken to be "\n".
- `UserPacketEnum` is taken to be 0x53, because the enumeration is part of the transport library.
- `GetServersByType` is an unseen database query. The store's specification list stands in for its result, so the world-type filter is part of `ServerHelper.HasRoom`.
- DatabaseCache.CreateSession: takes `Key` to be the primary key of the SessionCaches table, so a generated key already present is refused with a key violation. The entity class that would say so is not part of this model. If the key were an ordinary column, a colliding session would be added beside the older row, and the `First` lookups would keep returning the older one. A collision needs two equal draws of 24 random bytes. `CharacterId` and `ZoneId` are likewise taken to be non-nullable columns, so an unset field reads as 0 (`Unset`).
- ServerHelper.PollLoop: between two reads only the polled request's row and the specification table are taken to change. Other requests filed at the same time are held fixed, so the rows before the filed request come back unchanged.
- Commands.HelpLine: a signature's length counts characters (Unicode scalar values), while `String.Length` counts UTF-16 code units. A signature with a character outside the Basic Multilingual Plane is therefore padded by one space more per such character than the server pads it. The failure beyond 20 is measured on the same count, so the model can accept such a signature where the server throws.
- An `Err` result carries no store. When `Complete` names a missing specification, `RequestWorldServerAsync` has already removed the request before it throws, and the model does not record that removal.
- `Guid.NewGuid`, `RNGCryptoServiceProvider` and `System.Random` are not modelled. Their outputs (the request id, the 24 key bytes, the 64-bit draw) are inputs.
- Utils.RandomLong: its contract only says that an empty range divides by zero. Its range properties are stated in `Utils.RandomLongInRange` and `Utils.RandomLongCoversRange`.
- PacketDispatch.HandlePacket: the game-message subscribers receive the connection and the reader. The model records only the object id, the message id and the remaining fields.
- ServerHelper.PollLoop: observations past the end of the observed sequence read the request in its stored waiting state, with the specification table as the previous read left it.
- The other classes of the repository are not part of this model: missions, destructibles, operator commands, other behaviours and replica components.

## Findings

| source | as written | input that shows it | evidently intended | confidence | as-written member | corrected member |
|---|---|---|---|---|---|---|
| Uchu.World/Utilities/Event.cs:28-36 | `RemoveListener` allocates an array one shorter than before, but skips every occurrence of the delegate, so the surplus slots stay `null`; the next `Invoke` calls a `null` delegate and throws a null-reference exception | a listener added twice, then removed once: the array becomes `[null]` | the array holds exactly the remaining delegates, so invocation runs them and nothing else | not executed; high | Events.RemoveListenerAsWritten, Events.DuplicateRemovalLeavesNull | Events.RemoveListener, Events.RemovedNeverRuns |

=== FILE: base64.dfy ===
/** Base64 with the standard alphabet of RFC 4648, section 4, as produced by
    `Convert.ToBase64String`, and the session-key shape built from it
    (Uchu.Core/Cache/DatabaseCache.cs, `GenerateKey`): the encoding with its
    trailing `=` padding trimmed. */
module Base64 {
  import opened Outcomes

  type Byte = b: int | 0 <= b < 256

  /** The six-bit value one Base64 digit carries. */
  type Sextet = v: int | 0 <= v < 64

  /** The digit for a six-bit value: `A`-`Z`, `a`-`z`, `0`-`9`, `+`, `/`. */
  function Digit(v: Sextet): char {
    if v < 26 then ('A' as int + v) as char
    else if v < 52 then ('a' as int + (v - 26)) as char
    else if v < 62 then ('0' as int + (v - 52)) as char
    else if v == 62 then '+'
    else '/'
  }

  /** `c` belongs to the standard Base64 alphabet (the pad `=` does not). */
  predicate IsDigit(c: char) {
    ('A' <= c <= 'Z') || ('a' <= c <= 'z') || ('0' <= c <= '9') || c == '+' || c == '/'
  }

  /** Every character of `s` is a Base64 digit. */
  predicate AllDigits(s: string) {
    forall i :: 0 <= i < |s| ==> IsDigit(s[i])
  }

  /** The six-bit value of a digit; the inverse of `Digit`. */
  function Value(c: char): (v: Sextet)
    requires IsDigit(c)
    ensures Digit(v) == c
  {
    if 'A' <= c <= 'Z' then c as int - 'A' as int
    else if 'a' <= c <= 'z' then c as int - 'a' as int + 26
    else if '0' <= c <= '9' then c as int - '0' as int + 52
    else if c == '+' then 62
    else 63
  }

  /** Every value has a digit, the digit is in the alphabet and reads back. */
  lemma DigitValue(v: Sextet)
    ensures IsDigit(Digit(v)) && Value(Digit(v)) == v
  {
  }

  /** The four digits of a complete three-byte group. */
  function Quad(b0: Byte, b1: Byte, b2: Byte): string {
    [Digit(b0 / 4), Digit((b0 % 4) * 16 + b1 / 16), Digit((b1 % 16) * 4 + b2 / 64), Digit(b2 % 64)]
  }

  /** The digits (no padding) of a byte sequence: four per three-byte group,
      then two for a final single byte or three for a final pair. */
  function Chars(bytes: seq<Byte>): (s: string)
    ensures |s| == (4 * |bytes| + 2) / 3
    ensures AllDigits(s)
    decreases |bytes|
  {
    if |bytes| == 0 then ""
    else if |bytes| == 1 then
      DigitValue(bytes[0] / 4);
      DigitValue((bytes[0] % 4) * 16);
      [Digit(bytes[0] / 4), Digit((bytes[0] % 4) * 16)]
    else if |bytes| == 2 then
      DigitValue(bytes[0] / 4);
      DigitValue((bytes[0] % 4) * 16 + bytes[1] / 16);
      DigitValue((bytes[1] % 16) * 4);
      [Digit(bytes[0] / 4), Digit((bytes[0] % 4) * 16 + bytes[1] / 16), Digit((bytes[1] % 16) * 4)]
    else
      DigitValue(bytes[0] / 4);
      DigitValue((bytes[0] % 4) * 16 + bytes[1] / 16);
      DigitValue((bytes[1] % 16) * 4 + bytes[2] / 64);
      DigitValue(bytes[2] % 64);
      assert (4 * |bytes| + 2) / 3 == (4 * (|bytes| - 3) + 2) / 3 + 4;
      Quad(bytes[0], bytes[1], bytes[2]) + Chars(bytes[3..])
  }

  /** The `=` padding that completes the last group to four characters. */
  function Pad(leftover: nat): string
    requires leftover < 3
  {
    if leftover == 0 then "" else if leftover == 1 then "==" else "="
  }

  /** `Convert.ToBase64String`: the digits followed by the padding. */
  function Encode(bytes: seq<Byte>): (s: string)
    ensures |s| == 4 * ((|bytes| + 2) / 3)
  {
    Chars(bytes) + Pad(|bytes| % 3)
  }

  /** `String.TrimEnd(c)`: drops every trailing occurrence of `c`. */
  function TrimEnd(s: string, c: char): (t: string)
    ensures t <= s
    ensures |t| > 0 ==> t[|t| - 1] != c
    ensures forall i :: |t| <= i < |s| ==> s[i] == c
  {
    if |s| > 0 && s[|s| - 1] == c then TrimEnd(s[..|s| - 1], c) else s
  }

  /** Trimming `c` off `prefix + suffix`, where the suffix is all `c` and the
      prefix does not end in `c`, leaves the prefix. */
  lemma {:induction false} TrimSuffix(prefix: string, suffix: string, c: char)
    requires |prefix| > 0 ==> prefix[|prefix| - 1] != c
    requires forall i :: 0 <= i < |suffix| ==> suffix[i] == c
    ensures TrimEnd(prefix + suffix, c) == prefix
    decreases |suffix|
  {
    if |suffix| == 0 {
      assert prefix + suffix == prefix;
    } else {
      var shorter := suffix[..|suffix| - 1];
      assert (prefix + suffix)[..|prefix + suffix| - 1] == prefix + shorter;
      TrimSuffix(prefix, shorter, c);
    }
  }

  /** Trimming the padding off an encoding leaves exactly its digits. */
  lemma {:induction false} TrimPadding(bytes: seq<Byte>)
    ensures TrimEnd(Encode(bytes), '=') == Chars(bytes)
  {
    var d := Chars(bytes);
    TrimSuffix(d, Pad(|bytes| % 3), '=');
  }

  /** A session key: the Base64 encoding of the random bytes with its
      trailing `=` removed. */
  function GenerateKey(bytes: seq<Byte>): (key: string)
    ensures |key| == (4 * |bytes| + 2) / 3
    ensures forall i :: 0 <= i < |key| ==> IsDigit(key[i]) && key[i] != '='
  {
    TrimPadding(bytes);
    TrimEnd(Encode(bytes), '=')
  }

  /** The default key size: 24 bytes give 32 characters, all from the
      alphabet, with no padding to trim. */
  lemma KeyOf24Bytes(bytes: seq<Byte>)
    requires |bytes| == 24
    ensures |GenerateKey(bytes)| == 32
    ensures GenerateKey(bytes) == Encode(bytes)
  {
    TrimPadding(bytes);
  }

  /** The three bytes carried by four six-bit values. */
  function Bytes3(v0: Sextet, v1: Sextet, v2: Sextet, v3: Sextet): seq<Byte> {
    [v0 * 4 + v1 / 16, (v1 % 16) * 16 + v2 / 4, (v2 % 4) * 64 + v3]
  }

  /** Decodes unpadded Base64 digits; `None` for a character outside the
      alphabet or a dangling single digit. */
  function Decode(s: string): Option<seq<Byte>>
    decreases |s|
  {
    if |s| == 0 then Some([])
    else if !AllDigits(s) then None
    else if |s| == 1 then None
    else if |s| == 2 then
      Some(Bytes3(Value(s[0]), Value(s[1]), 0, 0)[..1])
    else if |s| == 3 then
      Some(Bytes3(Value(s[0]), Value(s[1]), Value(s[2]), 0)[..2])
    else
      match Decode(s[4..])
      case None => None
      case Some(rest) => Some(Bytes3(Value(s[0]), Value(s[1]), Value(s[2]), Value(s[3])) + rest)
  }

  /** The digits of a final single byte decode back to it. */
  lemma DecodeSingle(b0: Byte)
    ensures Decode(Chars([b0])) == Some([b0])
  {
    var c0, c1 := b0 / 4, (b0 % 4) * 16;
    var s := [Digit(c0), Digit(c1)];
    assert Chars([b0]) == s;
    DigitValue(c0);
    DigitValue(c1);
    assert AllDigits(s);
    assert Value(s[0]) == c0 && Value(s[1]) == c1;
    assert Decode(s) == Some(Bytes3(c0, c1, 0, 0)[..1]);
    assert Bytes3(c0, c1, 0, 0)[..1] == [b0];
  }

  /** The digits of a final pair of bytes decode back to it. */
  lemma DecodePair(b0: Byte, b1: Byte)
    ensures Decode(Chars([b0, b1])) == Some([b0, b1])
  {
    var c0, c1, c2 := b0 / 4, (b0 % 4) * 16 + b1 / 16, (b1 % 16) * 4;
    var s := [Digit(c0), Digit(c1), Digit(c2)];
    assert Chars([b0, b1]) == s;
    DigitValue(c0);
    DigitValue(c1);
    DigitValue(c2);
    assert AllDigits(s);
    assert Value(s[0]) == c0 && Value(s[1]) == c1 && Value(s[2]) == c2;
    assert Decode(s) == Some(Bytes3(c0, c1, c2, 0)[..2]);
    assert c1 / 16 == b0 % 4 && c1 % 16 == b1 / 16 && c2 / 4 == b1 % 16;
    assert Bytes3(c0, c1, c2, 0)[..2] == [b0, b1];
  }

  /** The six-bit values of a complete group carry its three bytes back. */
  lemma GroupRoundTrip(b0: Byte, b1: Byte, b2: Byte)
    ensures Bytes3(b0 / 4, (b0 % 4) * 16 + b1 / 16, (b1 % 16) * 4 + b2 / 64, b2 % 64) == [b0, b1, b2]
  {
    var c1 := (b0 % 4) * 16 + b1 / 16;
    var c2 := (b1 % 16) * 4 + b2 / 64;
    assert c1 / 16 == b0 % 4 && c1 % 16 == b1 / 16;
    assert c2 / 4 == b1 % 16 && c2 % 4 == b2 / 64;
  }

  /** Four digits in front of decodable digits decode to their three bytes
      in front of the rest. */
  lemma DecodeFront(s: string, restBytes: seq<Byte>)
    requires |s| >= 4 && AllDigits(s)
    requires Decode(s[4..]) == Some(restBytes)
    ensures Decode(s) == Some(Bytes3(Value(s[0]), Value(s[1]), Value(s[2]), Value(s[3])) + restBytes)
  {
  }

  /** Digits followed by digits are digits. */
  lemma AllDigitsAppend(a: string, b: string)
    requires AllDigits(a) && AllDigits(b)
    ensures AllDigits(a + b)
  {
    forall i | 0 <= i < |a + b|
      ensures IsDigit((a + b)[i])
    {
      if i >= |a| {
        assert (a + b)[i] == b[i - |a|];
      }
    }
  }

  /** A complete group in front of decodable digits decodes to its three
      bytes in front of theirs. */
  lemma DecodeGroup(b0: Byte, b1: Byte, b2: Byte, rest: string, restBytes: seq<Byte>)
    requires Decode(rest) == Some(restBytes)
    requires AllDigits(rest)
    ensures Decode(Quad(b0, b1, b2) + rest) == Some([b0, b1, b2] + restBytes)
  {
    var c0, c1 := b0 / 4, (b0 % 4) * 16 + b1 / 16;
    var c2, c3 := (b1 % 16) * 4 + b2 / 64, b2 % 64;
    var s := Quad(b0, b1, b2) + rest;
    DigitValue(c0);
    DigitValue(c1);
    DigitValue(c2);
    DigitValue(c3);
    AllDigitsAppend(Quad(b0, b1, b2), rest);
    assert s[4..] == rest;
    DecodeFront(s, restBytes);
    assert Value(s[0]) == c0 && Value(s[1]) == c1 && Value(s[2]) == c2 && Value(s[3]) == c3;
    GroupRoundTrip(b0, b1, b2);
  }

  /** Decoding the digits of an encoding gives back the bytes. */
  lemma {:induction false} DecodeChars(bytes: seq<Byte>)
    ensures Decode(Chars(bytes)) == Some(bytes)
    decreases |bytes|
  {
    if |bytes| == 1 {
      assert bytes == [bytes[0]];
      DecodeSingle(bytes[0]);
    } else if |bytes| == 2 {
      assert bytes == [bytes[0], bytes[1]];
      DecodePair(bytes[0], bytes[1]);
    } else if |bytes| >= 3 {
      CharsFront(bytes);
      DecodeChars(bytes[3..]);
      DecodeGroup(bytes[0], bytes[1], bytes[2], Chars(bytes[3..]), bytes[3..]);
    }
  }

  /** The digits of three or more bytes: the group of the first three, then
      the digits of the rest. */
  lemma CharsFront(bytes: seq<Byte>)
    requires |bytes| >= 3
    ensures Chars(bytes) == Quad(bytes[0], bytes[1], bytes[2]) + Chars(bytes[3..])
    ensures bytes == [bytes[0], bytes[1], bytes[2]] + bytes[3..]
  {
    assert bytes[..3] == [bytes[0], bytes[1], bytes[2]];
    assert bytes == bytes[..3] + bytes[3..];
  }

  /** A session key decodes back to the bytes it was made from, so distinct
      random bytes always give distinct keys. */
  lemma KeyRoundTrip(bytes: seq<Byte>)
    ensures Decode(GenerateKey(bytes)) == Some(bytes)
  {
    TrimPadding(bytes);
    DecodeChars(bytes);
  }

  /** `GenerateKey` is injective. */
  lemma KeyInjective(a: seq<Byte>, b: seq<Byte>)
    requires GenerateKey(a) == GenerateKey(b)
    ensures a == b
  {
    KeyRoundTrip(a);
    KeyRoundTrip(b);
  }
}

=== FILE: bitstream.dfy ===
/** The bit streams game messages and behaviours are read from and written
    to, as a stream of typed fields. A field occupies the number of bits of
    its type; the bit order inside a field belongs to the stream library and
    is not part of the model, and neither is the layout of a wide string. */
module BitStream {
  import opened Outcomes
  import opened Utils

  /** A 32-bit signed integer. */
  type Int = x: int | -0x8000_0000 <= x < 0x8000_0000

  /** A 16-bit unsigned integer. */
  type UShort = x: int | 0 <= x < 0x1_0000

  /** A 32-bit unsigned integer. */
  type UInt = x: int | 0 <= x < 0x1_0000_0000

  /** One field of a stream. */
  datatype Field =
    | Bit(bit: bool)
    | Int32(int32: Int)
    | Int64(int64: Long)
    | UInt16(uint16: UShort)
    | WideString(text: string)

  type Stream = seq<Field>

  /** A stream of fixed-width fields only. */
  predicate FixedWidth(s: Stream) {
    forall i :: 0 <= i < |s| ==> !s[i].WideString?
  }

  /** The number of bits of a fixed-width stream. */
  function Bits(s: Stream): nat
    requires FixedWidth(s)
    decreases |s|
  {
    if |s| == 0 then 0
    else
      (match s[0]
       case Bit(_) => 1
       case Int32(_) => 32
       case Int64(_) => 64
       case UInt16(_) => 16) + Bits(s[1..])
  }

  /** The bits of a concatenation are the bits of its parts. */
  lemma {:induction false} BitsAppend(a: Stream, b: Stream)
    requires FixedWidth(a) && FixedWidth(b)
    ensures FixedWidth(a + b) && Bits(a + b) == Bits(a) + Bits(b)
    decreases |a|
  {
    if |a| == 0 {
      assert a + b == b;
    } else {
      assert (a + b)[1..] == a[1..] + b;
      BitsAppend(a[1..], b);
    }
  }

  /** `ReadBit`; reading past the end throws. */
  function ReadBit(s: Stream): (r: Result<(bool, Stream)>)
    ensures r.Ok? <==> |s| > 0 && s[0].Bit?
    ensures r.Ok? ==> s == [Bit(r.value.0)] + r.value.1
  {
    if |s| > 0 && s[0].Bit? then Ok((s[0].bit, s[1..])) else Err(EndOfStream)
  }

  /** `Read<int>`. */
  function ReadInt32(s: Stream): (r: Result<(Int, Stream)>)
    ensures r.Ok? <==> |s| > 0 && s[0].Int32?
    ensures r.Ok? ==> s == [Int32(r.value.0)] + r.value.1
  {
    if |s| > 0 && s[0].Int32? then Ok((s[0].int32, s[1..])) else Err(EndOfStream)
  }

  /** `Read<long>`. */
  function ReadInt64(s: Stream): (r: Result<(Long, Stream)>)
    ensures r.Ok? <==> |s| > 0 && s[0].Int64?
    ensures r.Ok? ==> s == [Int64(r.value.0)] + r.value.1
  {
    if |s| > 0 && s[0].Int64? then Ok((s[0].int64, s[1..])) else Err(EndOfStream)
  }

  /** `Read<ushort>`. */
  function ReadUInt16(s: Stream): (r: Result<(UShort, Stream)>)
    ensures r.Ok? <==> |s| > 0 && s[0].UInt16?
    ensures r.Ok? ==> s == [UInt16(r.value.0)] + r.value.1
  {
    if |s| > 0 && s[0].UInt16? then Ok((s[0].uint16, s[1..])) else Err(EndOfStream)
  }

  /** `ReadString(wide: true)`. */
  function ReadWideString(s: Stream): (r: Result<(string, Stream)>)
    ensures r.Ok? <==> |s| > 0 && s[0].WideString?
    ensures r.Ok? ==> s == [WideString(r.value.0)] + r.value.1
  {
    if |s| > 0 && s[0].WideString? then Ok((s[0].text, s[1..])) else Err(EndOfStream)
  }

  /** `writer.Flag(b)`: one bit holding `b`, after which the caller writes
      the guarded field only when `b` holds. */
  function Flag(b: bool): Stream {
    [Bit(b)]
  }
}

=== FILE: commands.dfy ===
/** Chat and console commands (Uchu.Core/Server.cs, `HandleCommandAsync`):
    the first character selects a command group, the first space-separated
    word (lower-cased) selects the handler, an unknown word yields the help
    listing, and the rest of the line is passed to the handler. The handler
    body is outside the model; what it returns is a parameter. */
module Commands {
  import opened Outcomes
  import opened Table
  import opened Text
  import opened Registry

  /** The object that issued a command; `None` is the server console. */
  type Author = Option<nat>

  /** The command groups, by prefix character. */
  type CommandMap = Dict<char, Dict<string, CommandHandler>>

  /** The width of the signature column of the help listing. */
  const SignatureColumn: int := 20

  /** `Environment.NewLine` on the server's host. */
  const NewLine: string := "\n"

  const PermissionDenied: string := "You don't have permission to run this command"

  /** What a handler is invoked with, chosen by its parameter count. */
  datatype Arguments =
    | NoArguments
    | Words(words: seq<string>)
    | WordsAndAuthor(words: seq<string>, author: Author)

  /** One handler invocation. */
  datatype Call = Call(handler: CommandHandler, arguments: Arguments)

  /** What the handler gave back. A handler that throws, or returns a task
      that faults, is `Threw`. */
  datatype ReturnValue =
    | String(text: string)
    | Null
    | StringTask(result: Option<string>)
    | PlainTask
    | OtherValue
    | Threw

  /** How a command is dealt with before any handler runs. */
  datatype Decision =
    | NullReply
    | Fail(fault: Fault)
    | HelpReply(text: string)
    | Denied
    | Invoke(call: Call)

  /** `command.FirstOrDefault()`: the first character, or `'\0'` for the
      empty string. */
  function PrefixOf(command: string): (c: char)
    ensures |command| > 0 ==> c == command[0]
    ensures |command| == 0 ==> c == '\0'
  {
    if |command| == 0 then '\0' else command[0]
  }

  /** The words of a command after its prefix, as `Split(' ')` gives them. */
  function WordsOf(command: string): (words: seq<string>)
    requires |command| > 0
    ensures |words| >= 1
  {
    Split(command[1..], ' ')
  }

  /** `string.Concat(Enumerable.Repeat(" ", n))`; a negative count throws. */
  function Spaces(n: int): (r: Result<string>)
    ensures r.Err? <==> n < 0
    ensures r.Ok? ==> |r.value| == n && forall i :: 0 <= i < n ==> r.value[i] == ' '
  {
    if n < 0 then Err(ArgumentOutOfRange) else Ok(seq(n, _ => ' '))
  }

  /** One line of the help listing: prefix, signature padded to the
      signature column, help text, line break. */
  function HelpLine(prefix: char, h: CommandHandler): (r: Result<string>)
    ensures r.Err? <==> |h.signature| > SignatureColumn
    ensures r.Err? ==> r.fault == ArgumentOutOfRange
    ensures r.Ok? ==>
      && |r.value| == 1 + SignatureColumn + |h.help| + |NewLine|
      && r.value[0] == prefix
      && r.value[1..1 + |h.signature|] == h.signature
      && (forall i :: 1 + |h.signature| <= i < 1 + SignatureColumn ==> r.value[i] == ' ')
      && r.value[1 + SignatureColumn..1 + SignatureColumn + |h.help|] == h.help
      && r.value[1 + SignatureColumn + |h.help|..] == NewLine
  {
    var pad :- Spaces(SignatureColumn - |h.signature|);
    var line := [prefix] + h.signature + pad + h.help + NewLine;
    assert line[1..1 + |h.signature|] == h.signature;
    assert line[1 + SignatureColumn..1 + SignatureColumn + |h.help|] == h.help;
    Ok(line)
  }

  /** A handler is listed to a caller at or above its level; the console is
      shown console commands only. */
  predicate Listed(h: CommandHandler, author: Author, level: Level) {
    level >= h.level && (author.Some? || h.consoleCommand)
  }

  /** The handlers listed to a caller, in their order. */
  function Listing(handlers: seq<CommandHandler>, author: Author, level: Level): (listed: seq<CommandHandler>)
    ensures |listed| <= |handlers|
    ensures forall h :: h in listed ==> h in handlers && Listed(h, author, level)
    ensures forall i :: 0 <= i < |handlers| && Listed(handlers[i], author, level) ==> handlers[i] in listed
    decreases |handlers|
  {
    if |handlers| == 0 then []
    else (if Listed(handlers[0], author, level) then [handlers[0]] else []) + Listing(handlers[1..], author, level)
  }

  /** Every handler's signature fits the signature column. */
  predicate Fits(hs: seq<CommandHandler>) {
    forall i :: 0 <= i < |hs| ==> |hs[i].signature| <= SignatureColumn
  }

  /** The help lines of `hs`, one after the other. */
  function Lines(prefix: char, hs: seq<CommandHandler>): (text: string)
    requires Fits(hs)
    ensures |hs| > 0 ==> HelpLine(prefix, hs[0]).value <= text
    ensures |hs| == 0 <==> text == ""
    decreases |hs|
  {
    if |hs| == 0 then "" else HelpLine(prefix, hs[0]).value + Lines(prefix, hs[1..])
  }

  /** The help listing over `handlers`: the help line of every handler
      listed to the caller, in their order; a listed signature wider than
      the signature column makes the padding throw. */
  function Help(prefix: char, handlers: seq<CommandHandler>, author: Author, level: Level): (r: Result<string>)
    ensures r.Err? <==> exists i :: 0 <= i < |handlers| && Listed(handlers[i], author, level)
                                    && |handlers[i].signature| > SignatureColumn
    ensures r.Err? ==> r.fault == ArgumentOutOfRange
    ensures r.Ok? <==> Fits(Listing(handlers, author, level))
    ensures r.Ok? ==> r.value == Lines(prefix, Listing(handlers, author, level))
    ensures r == Ok("") <==> forall i :: 0 <= i < |handlers| ==> !Listed(handlers[i], author, level)
    decreases |handlers|
  {
    if |handlers| == 0 then Ok("")
    else
      var tail := Listing(handlers[1..], author, level);
      var rest :- Help(prefix, handlers[1..], author, level);
      if !Listed(handlers[0], author, level) then
        assert Listing(handlers, author, level) == tail;
        Ok(rest)
      else
        var listed := [handlers[0]] + tail;
        assert Listing(handlers, author, level) == listed;
        assert listed[0] == handlers[0] && listed[1..] == tail;
        var line :- HelpLine(prefix, handlers[0]);
        Ok(line + rest)
  }

  /** The arguments a handler of the given parameter count is invoked
      with; more than two parameters make the invocation throw. */
  function ArgumentsFor(h: CommandHandler, words: seq<string>, author: Author): (r: Result<Arguments>)
    ensures r.Err? <==> h.arity > 2
    ensures r.Ok? && h.arity == 0 ==> r.value == NoArguments
    ensures r.Ok? && h.arity == 1 ==> r.value == Words(words)
    ensures r.Ok? && h.arity == 2 ==> r.value == WordsAndAuthor(words, author)
  {
    if h.arity == 0 then Ok(NoArguments)
    else if h.arity == 1 then Ok(Words(words))
    else if h.arity == 2 then Ok(WordsAndAuthor(words, author))
    else Err(ParameterCount)
  }

  /** Everything `HandleCommandAsync` decides before a handler runs. */
  function Dispatch(commands: CommandMap, command: Option<string>, author: Author, level: Level): (d: Decision)
    ensures d.NullReply? <==> command.None? || Get(commands, PrefixOf(command.value)).None?
    ensures d == Fail(ArgumentOutOfRange) && command.Some? && |command.value| == 0 ==>
      Get(commands, '\0').Some?
    ensures d.Denied? || d.Invoke? ==>
      && command.Some? && |command.value| > 0
      && var group := Get(commands, command.value[0]).value;
      && var handler := Get(group, ToLower(WordsOf(command.value)[0]));
      && handler.Some?
      && (d.Denied? <==> level < handler.value.level)
    ensures d.Invoke? ==>
      && var group := Get(commands, command.value[0]).value;
      && var words := WordsOf(command.value);
      && Get(group, ToLower(words[0])) == Some(d.call.handler)
      && ArgumentsFor(d.call.handler, words[1..], author) == Ok(d.call.arguments)
    ensures d.HelpReply? ==>
      && command.Some? && |command.value| > 0
      && var group := Get(commands, command.value[0]).value;
      && Get(group, ToLower(WordsOf(command.value)[0])).None?
      && Help(command.value[0], Values(group), author, level) == Ok(d.text)
    ensures d.Fail? ==> d.fault == ArgumentOutOfRange || d.fault == ParameterCount
    ensures command.Some? && |command.value| == 0 && Get(commands, '\0').Some? ==> d == Fail(ArgumentOutOfRange)
    ensures command.Some? && |command.value| > 0 && Get(commands, command.value[0]).Some? ==>
      && var group := Get(commands, command.value[0]).value;
      && var handler := Get(group, ToLower(WordsOf(command.value)[0]));
      && var help := Help(command.value[0], Values(group), author, level);
      && (handler.None? && help.Ok? ==> d == HelpReply(help.value))
      && (handler.None? && help.Err? ==> d == Fail(ArgumentOutOfRange))
      && (handler.Some? && level < handler.value.level ==> d == Denied)
      && (handler.Some? && level >= handler.value.level ==>
            && (d.Invoke? <==> handler.value.arity <= 2)
            && (handler.value.arity > 2 ==> d == Fail(ParameterCount)))
  {
    match command
    case None => NullReply
    case Some(text) =>
      match Get(commands, PrefixOf(text))
      case None => NullReply
      case Some(group) =>
        if |text| == 0 then Fail(ArgumentOutOfRange)
        else
          var words := WordsOf(text);
          match Get(group, ToLower(words[0]))
          case None =>
            (match Help(text[0], Values(group), author, level)
             case Ok(listing) => HelpReply(listing)
             case Err(f) => Fail(f))
          case Some(handler) =>
            if level < handler.level then Denied
            else
              match ArgumentsFor(handler, words[1..], author)
              case Ok(arguments) => Invoke(Call(handler, arguments))
              case Err(f) => Fail(f)
  }

  /** The reply for what the handler returned: a string as it is, the result
      of a string task (which may be null), and the empty string for a plain
      task or anything else. */
  function Reply(v: ReturnValue): (r: Result<Option<string>>)
    ensures r.Err? <==> v.Threw?
    ensures r == Ok(None) <==> v == StringTask(None)
    ensures v.String? ==> r == Ok(Some(v.text))
    ensures v.StringTask? ==> r == Ok(v.result)
    ensures v.Null? || v.PlainTask? || v.OtherValue? ==> r == Ok(Some(""))
  {
    match v
    case String(s) => Ok(Some(s))
    case StringTask(result) => Ok(result)
    case Null => Ok(Some(""))
    case PlainTask => Ok(Some(""))
    case OtherValue => Ok(Some(""))
    case Threw => Err(HandlerFault)
  }

  /** `HandleCommandAsync`: the reply text, `None` for `null`. `run` stands
      for the handler bodies. */
  function HandleCommand(commands: CommandMap, command: Option<string>, author: Author, level: Level,
                         run: Call -> ReturnValue): (r: Result<Option<string>>)
    ensures command.None? ==> r == Ok(None)
    ensures r.Err? && r.fault == HandlerFault ==> Dispatch(commands, command, author, level).Invoke?
    ensures Dispatch(commands, command, author, level).Denied? ==> r == Ok(Some(PermissionDenied))
    ensures Dispatch(commands, command, author, level).NullReply? ==> r == Ok(None)
    ensures Dispatch(commands, command, author, level).Fail? ==> r == Err(Dispatch(commands, command, author, level).fault)
    ensures Dispatch(commands, command, author, level).HelpReply? ==>
      r == Ok(Some(Dispatch(commands, command, author, level).text))
    ensures Dispatch(commands, command, author, level).Invoke? ==>
      r == Reply(run(Dispatch(commands, command, author, level).call))
  {
    match Dispatch(commands, command, author, level)
    case NullReply => Ok(None)
    case Fail(f) => Err(f)
    case HelpReply(listing) => Ok(Some(listing))
    case Denied => Ok(Some(PermissionDenied))
    case Invoke(call) => Reply(run(call))
  }

  /** A handler found under a key carries that key as its signature. */
  lemma FoundUnderSignature(commands: CommandMap, prefix: char, key: string)
    requires CommandsKeyed(commands)
    requires Get(commands, prefix).Some? && Get(Get(commands, prefix).value, key).Some?
    ensures Get(Get(commands, prefix).value, key).value.signature == key
  {
    var group := Get(commands, prefix).value;
    GetSpec(commands, prefix);
    GetSpec(group, key);
  }

  /** A handler that is invoked sees exactly the rest of the line: the
      command is its prefix, a word that lower-cases to the handler's
      signature, and the handler's words, joined by spaces. */
  lemma ArgumentsAreRestOfLine(commands: CommandMap, command: string, author: Author, level: Level)
    requires CommandsKeyed(commands)
    requires Dispatch(commands, Some(command), author, level).Invoke?
    ensures var call := Dispatch(commands, Some(command), author, level).call;
      exists word: string, rest: seq<string> ::
        && ToLower(word) == call.handler.signature
        && command == [command[0]] + Join([word] + rest, ' ')
        && (call.arguments.Words? ==> call.arguments.words == rest)
        && (call.arguments.WordsAndAuthor? ==> call.arguments.words == rest && call.arguments.author == author)
  {
    var words := WordsOf(command);
    FoundUnderSignature(commands, command[0], ToLower(words[0]));
    JoinSplit(command[1..], ' ');
    assert words == [words[0]] + words[1..];
    assert command == [command[0]] + command[1..];
  }

  /** The looked-up word is lower-cased, so a handler whose signature has
      an upper-case letter is never invoked. */
  lemma InvokedSignatureIsLower(commands: CommandMap, command: Option<string>, author: Author, level: Level)
    requires CommandsKeyed(commands)
    requires Dispatch(commands, command, author, level).Invoke?
    ensures IsLower(Dispatch(commands, command, author, level).call.handler.signature)
  {
    var words := WordsOf(command.value);
    FoundUnderSignature(commands, command.value[0], ToLower(words[0]));
    ToLowerIsLower(words[0]);
  }
}

=== FILE: database_cache.dfy ===
/** The database-backed session cache (Uchu.Core/Cache/DatabaseCache.cs):
    a process-local dictionary from connection endpoint to session key, and
    the SessionCaches table of session rows keyed by that session key. The
    table is an in-memory map; the random key bytes are a parameter. */
module DatabaseCache {
  import opened Outcomes
  import opened Utils
  import Base64

  /** A session key, as generated by `Base64.GenerateKey`. */
  type Key = string

  /** A connection endpoint, identified by its `IPEndPoint.ToString()` form,
      which is what the dictionary of bindings is keyed by. */
  type Endpoint = string

  /** The value of a field the session has not set yet: the CLR default of
      a non-nullable column. */
  const Unset: int := 0

  /** The number of random bytes behind a key. */
  const KeyBytes: nat := 24

  /** One row of the SessionCaches table. */
  datatype SessionRow = SessionRow(userId: Long, characterId: Long, zoneId: int)

  /** The session record handed back to callers. */
  datatype Session = Session(key: Key, userId: Long, characterId: Long, zoneId: int)

  /** The endpoint-to-key bindings and the session table. */
  datatype Cache = Cache(keys: map<Endpoint, Key>, rows: map<Key, SessionRow>)

  /** An empty cache: no bindings and no rows. */
  const Empty: Cache := Cache(map[], map[])

  /** Every row other than the one at `key` is the same in both tables, and
      both tables hold the same keys. */
  ghost predicate OtherRowsUnchanged(before: map<Key, SessionRow>, after: map<Key, SessionRow>, key: Key) {
    && before.Keys == after.Keys
    && forall k :: k in before && k != key ==> after[k] == before[k]
  }

  /** `CreateSession`: adds one row under a key made from `random`, owned by
      `userId`, with character and zone unset, and returns the key. Saving a
      row whose key is already in the table violates its primary key. */
  function CreateSession(c: Cache, userId: Long, random: seq<Base64.Byte>): (r: Result<(Cache, Key)>)
    requires |random| == KeyBytes
    ensures r.Err? <==> Base64.GenerateKey(random) in c.rows
    ensures r.Err? ==> r.fault == DuplicateKey
    ensures r.Ok? ==> var (after, key) := r.value;
      && key == Base64.GenerateKey(random)
      && |key| == 32
      && key !in c.rows
      && after.keys == c.keys
      && after.rows.Keys == c.rows.Keys + {key}
      && after.rows[key] == SessionRow(userId, Unset, Unset)
      && forall k :: k in c.rows ==> after.rows[k] == c.rows[k]
  {
    Base64.KeyOf24Bytes(random);
    var key := Base64.GenerateKey(random);
    if key in c.rows then Err(DuplicateKey)
    else Ok((c.(rows := c.rows[key := SessionRow(userId, Unset, Unset)]), key))
  }

  /** The key bound to `endpoint` and its row: the dictionary indexer throws
      for an unbound endpoint, `First` throws when no row has the key. */
  function BoundRow(c: Cache, endpoint: Endpoint): (r: Result<Key>)
    ensures r.Ok? <==> endpoint in c.keys && c.keys[endpoint] in c.rows
    ensures endpoint !in c.keys ==> r == Err(KeyNotFound)
    ensures endpoint in c.keys && c.keys[endpoint] !in c.rows ==> r == Err(SequenceEmpty)
    ensures r.Ok? ==> r.value == c.keys[endpoint]
  {
    if endpoint !in c.keys then Err(KeyNotFound)
    else if c.keys[endpoint] !in c.rows then Err(SequenceEmpty)
    else Ok(c.keys[endpoint])
  }

  /** `SetCharacter`: changes only the character of the endpoint's session. */
  function SetCharacter(c: Cache, endpoint: Endpoint, characterId: Long): (r: Result<Cache>)
    ensures r.Err? <==> BoundRow(c, endpoint).Err?
    ensures r.Err? ==> r.fault == BoundRow(c, endpoint).fault
    ensures r.Ok? ==> var key := c.keys[endpoint];
      && r.value.keys == c.keys
      && OtherRowsUnchanged(c.rows, r.value.rows, key)
      && r.value.rows[key] == c.rows[key].(characterId := characterId)
  {
    var key :- BoundRow(c, endpoint);
    Ok(c.(rows := c.rows[key := c.rows[key].(characterId := characterId)]))
  }

  /** `SetZone`: changes only the zone of the endpoint's session. */
  function SetZone(c: Cache, endpoint: Endpoint, zone: int): (r: Result<Cache>)
    ensures r.Err? <==> BoundRow(c, endpoint).Err?
    ensures r.Err? ==> r.fault == BoundRow(c, endpoint).fault
    ensures r.Ok? ==> var key := c.keys[endpoint];
      && r.value.keys == c.keys
      && OtherRowsUnchanged(c.rows, r.value.rows, key)
      && r.value.rows[key] == c.rows[key].(zoneId := zone)
  {
    var key :- BoundRow(c, endpoint);
    Ok(c.(rows := c.rows[key := c.rows[key].(zoneId := zone)]))
  }

  /** `GetSession`: the endpoint's key together with its row's fields. */
  function GetSession(c: Cache, endpoint: Endpoint): (r: Result<Session>)
    ensures r.Err? <==> BoundRow(c, endpoint).Err?
    ensures r.Err? ==> r.fault == BoundRow(c, endpoint).fault
    ensures r.Ok? ==>
      && r.value.key == c.keys[endpoint]
      && var row := c.rows[r.value.key];
      && r.value.userId == row.userId
      && r.value.characterId == row.characterId
      && r.value.zoneId == row.zoneId
  {
    var key :- BoundRow(c, endpoint);
    var row := c.rows[key];
    Ok(Session(key, row.userId, row.characterId, row.zoneId))
  }

  /** `IsKey`: some row carries `key`. For an endpoint bound to `key`, it
      says whether the endpoint's session lookups succeed. */
  function IsKey(c: Cache, key: Key): (r: bool)
    ensures forall e :: e in c.keys && c.keys[e] == key ==> (r <==> BoundRow(c, e).Ok?)
  {
    key in c.rows
  }

  /** `RegisterKey`: binds `endpoint` to `key`; `Dictionary.Add` throws for an
      endpoint that is already bound. */
  function RegisterKey(c: Cache, endpoint: Endpoint, key: Key): (r: Result<Cache>)
    ensures r.Err? <==> endpoint in c.keys
    ensures r.Err? ==> r.fault == DuplicateKey
    ensures r.Ok? ==>
      && r.value.rows == c.rows
      && r.value.keys.Keys == c.keys.Keys + {endpoint}
      && r.value.keys[endpoint] == key
      && forall e :: e in c.keys ==> r.value.keys[e] == c.keys[e]
  {
    if endpoint in c.keys then Err(DuplicateKey)
    else Ok(c.(keys := c.keys[endpoint := key]))
  }

  /** `DeleteSession`: removes the endpoint's row only; the binding stays. */
  function DeleteSession(c: Cache, endpoint: Endpoint): (r: Result<Cache>)
    ensures r.Err? <==> BoundRow(c, endpoint).Err?
    ensures r.Err? ==> r.fault == BoundRow(c, endpoint).fault
    ensures r.Ok? ==>
      && r.value.keys == c.keys
      && r.value.rows.Keys == c.rows.Keys - {c.keys[endpoint]}
      && forall k :: k in r.value.rows ==> r.value.rows[k] == c.rows[k]
  {
    var key :- BoundRow(c, endpoint);
    Ok(c.(rows := c.rows - {key}))
  }

  /** Creating a session, binding an endpoint to its key and reading it back
      gives that key, the user, and an unset character and zone. */
  lemma CreateRegisterGet(c: Cache, userId: Long, random: seq<Base64.Byte>, endpoint: Endpoint)
    requires |random| == KeyBytes
    requires Base64.GenerateKey(random) !in c.rows
    requires endpoint !in c.keys
    ensures CreateSession(c, userId, random).Ok?
    ensures var (created, key) := CreateSession(c, userId, random).value;
      && RegisterKey(created, endpoint, key).Ok?
      && GetSession(RegisterKey(created, endpoint, key).value, endpoint)
         == Ok(Session(key, userId, Unset, Unset))
  {
  }

  /** A character or zone written through an endpoint is what the next read
      through that endpoint returns, with the other fields untouched. */
  lemma SetThenGet(c: Cache, endpoint: Endpoint, characterId: Long, zone: int)
    requires BoundRow(c, endpoint).Ok?
    ensures var before := GetSession(c, endpoint).value;
      && GetSession(SetCharacter(c, endpoint, characterId).value, endpoint)
         == Ok(before.(characterId := characterId))
      && GetSession(SetZone(c, endpoint, zone).value, endpoint)
         == Ok(before.(zoneId := zone))
  {
  }

  /** After deleting an endpoint's session its key is no longer a key, the
      endpoint stays bound, and every further access through it fails. */
  lemma DeleteThenAccess(c: Cache, endpoint: Endpoint, characterId: Long)
    requires BoundRow(c, endpoint).Ok?
    ensures var after := DeleteSession(c, endpoint).value;
      && !IsKey(after, c.keys[endpoint])
      && endpoint in after.keys
      && GetSession(after, endpoint) == Err(SequenceEmpty)
      && SetCharacter(after, endpoint, characterId) == Err(SequenceEmpty)
      && DeleteSession(after, endpoint) == Err(SequenceEmpty)
  {
  }

  /** A generated key collides exactly when it is already a key. A created
      session's key is a key afterwards, and whether any other string is a
      key does not change. */
  lemma CreateThenIsKey(c: Cache, userId: Long, random: seq<Base64.Byte>)
    requires |random| == KeyBytes
    ensures CreateSession(c, userId, random).Err? <==> IsKey(c, Base64.GenerateKey(random))
    ensures CreateSession(c, userId, random).Ok? ==>
      var (after, key) := CreateSession(c, userId, random).value;
      && IsKey(after, key)
      && forall k :: k != key ==> IsKey(after, k) == IsKey(c, k)
  {
  }

  /** Binding an endpoint, or writing a session's character or zone, does
      not change which strings are keys. */
  lemma IsKeyFrame(c: Cache, endpoint: Endpoint, key: Key, characterId: Long, zone: int)
    ensures RegisterKey(c, endpoint, key).Ok? ==>
      forall k :: IsKey(RegisterKey(c, endpoint, key).value, k) == IsKey(c, k)
    ensures SetCharacter(c, endpoint, characterId).Ok? ==>
      forall k :: IsKey(SetCharacter(c, endpoint, characterId).value, k) == IsKey(c, k)
    ensures SetZone(c, endpoint, zone).Ok? ==>
      forall k :: IsKey(SetZone(c, endpoint, zone).value, k) == IsKey(c, k)
  {
  }

  /** Setting the same field twice keeps only the later value. */
  lemma SetCharacterLastWins(c: Cache, endpoint: Endpoint, first: Long, second: Long)
    requires BoundRow(c, endpoint).Ok?
    ensures SetCharacter(SetCharacter(c, endpoint, first).value, endpoint, second)
            == SetCharacter(c, endpoint, second)
  {
    var key := c.keys[endpoint];
    var once := SetCharacter(c, endpoint, first).value;
    assert once.rows[key := once.rows[key].(characterId := second)]
        == c.rows[key := c.rows[key].(characterId := second)];
  }
}

=== FILE: events.dfy ===
/** Listener lists (Uchu.World/Utilities/Event.cs): an array of delegates
    with append, removal of a delegate and clearing, invoked in array order.
    A slot of the array may hold `null`, which is what removal leaves behind
    when the delegate occurs more than once. Listener bodies are outside the
    model: whether a listener throws is a parameter. */
module Events {
  import opened Outcomes

  /** One array slot: a delegate, or `null`. */
  datatype Slot<T> = Empty | Listener(action: T)

  /** What invoking the list did: the listeners that ran, in order, and the
      exception that ended the invocation early, if one did. A listener that
      throws has run. */
  datatype Trace<T> = Trace(ran: seq<T>, fault: Option<Fault>)

  /** The delegates of a list, in order, skipping `null` slots. */
  function Actions<T>(xs: seq<Slot<T>>): (r: seq<T>)
    ensures |r| <= |xs|
    ensures forall i :: 0 <= i < |xs| && xs[i].Listener? ==> xs[i].action in r
    ensures forall i :: 0 <= i < |r| ==> Listener(r[i]) in xs
    decreases |xs|
  {
    if |xs| == 0 then []
    else (if xs[0].Listener? then [xs[0].action] else []) + Actions(xs[1..])
  }

  /** Every slot holds a delegate. */
  predicate NoEmptySlots<T>(xs: seq<Slot<T>>) {
    forall i :: 0 <= i < |xs| ==> xs[i].Listener?
  }

  /** `AddListener`: the array grows by one slot holding `a`. */
  function AddListener<T>(xs: seq<Slot<T>>, a: T): (r: seq<Slot<T>>)
    ensures |r| == |xs| + 1 && r[..|xs|] == xs && r[|xs|] == Listener(a)
  {
    xs + [Listener(a)]
  }

  /** `Clear`: an empty array, holding no delegate and no `null` slot. */
  function Clear<T>(): (r: seq<Slot<T>>)
    ensures Actions(r) == [] && NoEmptySlots(r)
  {
    []
  }

  /** After `Clear`, nothing runs until a listener is added again, and then
      only that listener runs. */
  lemma ClearForgets<T>(a: T, throws: T -> bool)
    ensures Invoke(Clear<T>(), throws) == Trace([], None)
    ensures Invoke(AddListener(Clear(), a), throws).ran == [a]
  {
    assert AddListener(Clear(), a) == [Listener(a)];
  }

  /** The slots of `xs` other than `a`'s, in order. */
  function Without<T(==)>(xs: seq<Slot<T>>, a: T): (r: seq<Slot<T>>)
    ensures |r| <= |xs|
    ensures Listener(a) !in r
    ensures forall i :: 0 <= i < |r| ==> r[i] in xs && r[i] != Listener(a)
    ensures forall i :: 0 <= i < |xs| && xs[i] != Listener(a) ==> xs[i] in r
    decreases |xs|
  {
    if |xs| == 0 then []
    else (if xs[0] == Listener(a) then [] else [xs[0]]) + Without(xs[1..], a)
  }

  /** How many slots hold `a`. */
  function Occurrences<T(==)>(xs: seq<Slot<T>>, a: T): (n: nat)
    ensures n == |xs| - |Without(xs, a)|
    ensures n == 0 <==> Listener(a) !in xs
    decreases |xs|
  {
    if |xs| == 0 then 0
    else (if xs[0] == Listener(a) then 1 else 0) + Occurrences(xs[1..], a)
  }

  /** `RemoveListener` as the source has it: when `a` is present, a new array
      one slot shorter than the old receives every other delegate in order;
      slots left over stay `null`. A delegate of another type is never
      present, so it falls under the first case. */
  function RemoveListenerAsWritten<T(==)>(xs: seq<Slot<T>>, a: T): (r: seq<Slot<T>>)
    ensures Listener(a) !in xs ==> r == xs
    ensures Listener(a) in xs ==> |r| == |xs| - 1
    ensures Listener(a) in xs ==>
      && |r| - |Without(xs, a)| == Occurrences(xs, a) - 1
      && r[..|Without(xs, a)|] == Without(xs, a)
      && forall i :: |Without(xs, a)| <= i < |r| ==> r[i].Empty?
  {
    if Listener(a) !in xs then xs
    else
      var kept := Without(xs, a);
      var n := Occurrences(xs, a);
      kept + seq(n - 1, _ => Empty)
  }

  /** `RemoveListener` as evidently intended: every slot holding `a` goes,
      and no `null` slot is left behind. */
  function RemoveListener<T(==)>(xs: seq<Slot<T>>, a: T): (r: seq<Slot<T>>)
    ensures Listener(a) !in r
    ensures Listener(a) !in xs ==> r == xs
    ensures |r| == |xs| - Occurrences(xs, a)
    ensures NoEmptySlots(xs) ==> NoEmptySlots(r)
  {
    var r := Without(xs, a);
    if Listener(a) !in xs then WithoutAbsent(xs, a); r else r
  }

  /** Removing an absent delegate keeps every slot. */
  lemma {:induction false} WithoutAbsent<T>(xs: seq<Slot<T>>, a: T)
    requires Listener(a) !in xs
    ensures Without(xs, a) == xs
    decreases |xs|
  {
    if |xs| > 0 {
      assert Listener(a) !in xs[1..];
      WithoutAbsent(xs[1..], a);
    }
  }

  /** `Invoke`: the slots in order, each delegate called once; a `null` slot
      throws a null reference, and a throwing listener ends the call. */
  function Invoke<T>(xs: seq<Slot<T>>, throws: T -> bool): (t: Trace<T>)
    ensures |t.ran| <= |xs|
    ensures t.fault.None? ==> t.ran == Actions(xs)
    ensures t.fault.Some? ==> t.fault == Some(NullReference) || t.fault == Some(HandlerFault)
    ensures t.fault == Some(HandlerFault) ==> |t.ran| > 0 && throws(t.ran[|t.ran| - 1])
    ensures forall i :: 0 <= i < |t.ran| && (i < |t.ran| - 1 || t.fault != Some(HandlerFault)) ==> !throws(t.ran[i])
    decreases |xs|
  {
    if |xs| == 0 then Trace([], None)
    else match xs[0]
      case Empty => Trace([], Some(NullReference))
      case Listener(a) =>
        if throws(a) then Trace([a], Some(HandlerFault))
        else
          var rest := Invoke(xs[1..], throws);
          Trace([a] + rest.ran, rest.fault)
  }

  /** The slot holds a listener that returns normally. */
  predicate Passes<T>(x: Slot<T>, throws: T -> bool) {
    x.Listener? && !throws(x.action)
  }

  /** The index of the first slot that is `null` or holds a throwing
      listener, or `|xs|` when there is none. */
  function FirstFailure<T>(xs: seq<Slot<T>>, throws: T -> bool): (k: nat)
    ensures k <= |xs|
    ensures forall j :: 0 <= j < k ==> Passes(xs[j], throws)
    ensures k < |xs| ==> !Passes(xs[k], throws)
    decreases |xs|
  {
    if |xs| == 0 || !Passes(xs[0], throws) then 0 else 1 + FirstFailure(xs[1..], throws)
  }

  /** The whole trace of an invocation: every listener before the first
      failing slot runs, in order; a throwing listener in that slot runs too
      and ends the call with its exception, a `null` slot ends it with a null
      reference, and nothing after it runs. */
  lemma {:induction false} InvokeTrace<T>(xs: seq<Slot<T>>, throws: T -> bool)
    ensures var k := FirstFailure(xs, throws);
      Invoke(xs, throws) ==
        if k == |xs| then Trace(Actions(xs), None)
        else if xs[k].Empty? then Trace(Actions(xs[..k]), Some(NullReference))
        else Trace(Actions(xs[..k]) + [xs[k].action], Some(HandlerFault))
    decreases |xs|
  {
    if |xs| > 0 && Passes(xs[0], throws) {
      var a := xs[0].action;
      var tail := xs[1..];
      var k := FirstFailure(tail, throws);
      assert FirstFailure(xs, throws) == k + 1;
      InvokeTrace(tail, throws);
      var rest := Invoke(tail, throws);
      assert Invoke(xs, throws) == Trace([a] + rest.ran, rest.fault);
      if k == |tail| {
        assert Actions(xs) == [a] + Actions(tail);
      } else {
        var head := xs[..k + 1];
        assert head[0] == xs[0] && head[1..] == tail[..k];
        assert Actions(head) == [a] + Actions(tail[..k]);
        assert xs[k + 1] == tail[k];
      }
    } else if |xs| > 0 {
      assert xs[..0] == [];
    }
  }

  /** An invocation fails exactly when it meets a `null` slot or a throwing
      listener. */
  lemma {:induction false} InvokeSucceeds<T>(xs: seq<Slot<T>>, throws: T -> bool)
    ensures Invoke(xs, throws).fault.None? <==> forall i :: 0 <= i < |xs| ==> Passes(xs[i], throws)
    decreases |xs|
  {
    if |xs| > 0 {
      InvokeSucceeds(xs[1..], throws);
      assert forall i :: 0 <= i < |xs[1..]| ==> xs[1..][i] == xs[i + 1];
    }
  }

  /** A failed invocation is a null reference exactly when a `null` slot
      comes before any throwing listener. */
  lemma {:induction false} InvokeNullFirst<T>(xs: seq<Slot<T>>, throws: T -> bool)
    ensures Invoke(xs, throws).fault == Some(NullReference) <==>
      exists i :: 0 <= i < |xs| && xs[i].Empty? && forall j :: 0 <= j < i ==> Passes(xs[j], throws)
    decreases |xs|
  {
    if |xs| > 0 && Passes(xs[0], throws) {
      var tail := xs[1..];
      InvokeNullFirst(tail, throws);
      assert Invoke(xs, throws).fault == Invoke(tail, throws).fault;
      if Invoke(tail, throws).fault == Some(NullReference) {
        var i :| 0 <= i < |tail| && tail[i].Empty? && forall j :: 0 <= j < i ==> Passes(tail[j], throws);
        assert xs[i + 1].Empty?;
        assert forall j :: 0 <= j < i + 1 ==> Passes(xs[j], throws) by {
          forall j | 0 <= j < i + 1
            ensures Passes(xs[j], throws)
          {
            if j > 0 {
              assert xs[j] == tail[j - 1];
            }
          }
        }
      }
      if exists i :: 0 <= i < |xs| && xs[i].Empty? && forall j :: 0 <= j < i ==> Passes(xs[j], throws) {
        var i :| 0 <= i < |xs| && xs[i].Empty? && forall j :: 0 <= j < i ==> Passes(xs[j], throws);
        assert i > 0;
        assert tail[i - 1].Empty?;
        assert forall j :: 0 <= j < i - 1 ==> tail[j] == xs[j + 1];
      }
    }
  }

  /** An invocation fails exactly when it meets a `null` slot or a throwing
      listener, and then it is a null reference exactly when the `null` slot
      comes first. */
  lemma InvokeFails<T>(xs: seq<Slot<T>>, throws: T -> bool)
    ensures Invoke(xs, throws).fault.None? <==>
      forall i :: 0 <= i < |xs| ==> xs[i].Listener? && !throws(xs[i].action)
    ensures Invoke(xs, throws).fault == Some(NullReference) <==>
      exists i :: 0 <= i < |xs| && xs[i].Empty?
                  && forall j :: 0 <= j < i ==> xs[j].Listener? && !throws(xs[j].action)
  {
    InvokeSucceeds(xs, throws);
    InvokeNullFirst(xs, throws);
  }

  /** A new listener runs after all earlier ones, when none of them fails. */
  lemma {:induction false} AddedRunsLast<T>(xs: seq<Slot<T>>, a: T, throws: T -> bool)
    requires Invoke(xs, throws).fault.None?
    ensures Invoke(AddListener(xs, a), throws).ran == Actions(xs) + [a]
    decreases |xs|
  {
    if |xs| > 0 {
      assert AddListener(xs, a)[1..] == AddListener(xs[1..], a);
      AddedRunsLast(xs[1..], a, throws);
    }
  }

  /** Adding a listener not yet present and removing it again restores the
      list. */
  lemma AddThenRemove<T>(xs: seq<Slot<T>>, a: T)
    requires Listener(a) !in xs
    ensures RemoveListener(AddListener(xs, a), a) == xs
  {
    WithoutAbsent(xs, a);
    WithoutAppend(xs, [Listener(a)], a);
  }

  /** Removal distributes over concatenation. */
  lemma {:induction false} WithoutAppend<T>(xs: seq<Slot<T>>, ys: seq<Slot<T>>, a: T)
    ensures Without(xs + ys, a) == Without(xs, a) + Without(ys, a)
    decreases |xs|
  {
    if |xs| > 0 {
      assert (xs + ys)[1..] == xs[1..] + ys;
      WithoutAppend(xs[1..], ys, a);
    } else {
      assert xs + ys == ys;
    }
  }

  /** A removed listener is never called again, and a list without `null`
      slots never throws a null reference. */
  lemma RemovedNeverRuns<T>(xs: seq<Slot<T>>, a: T, throws: T -> bool)
    requires NoEmptySlots(xs)
    ensures a !in Invoke(RemoveListener(xs, a), throws).ran
    ensures Invoke(RemoveListener(xs, a), throws).fault != Some(NullReference)
  {
    var r := RemoveListener(xs, a);
    RanAreListeners(r, throws);
    InvokeFails(r, throws);
  }

  /** Every listener that runs occupies a slot. */
  lemma {:induction false} RanAreListeners<T>(xs: seq<Slot<T>>, throws: T -> bool)
    ensures forall b :: b in Invoke(xs, throws).ran ==> Listener(b) in xs
    decreases |xs|
  {
    if |xs| > 0 && xs[0].Listener? && !throws(xs[0].action) {
      RanAreListeners(xs[1..], throws);
      assert forall s :: s in xs[1..] ==> s in xs;
    }
  }

  /** Where the delegate occurs at most once, the removal as written is the
      intended one. */
  lemma AsWrittenAgreesOnSingle<T>(xs: seq<Slot<T>>, a: T)
    requires Occurrences(xs, a) <= 1
    ensures RemoveListenerAsWritten(xs, a) == RemoveListener(xs, a)
  {
    if Listener(a) !in xs {
      WithoutAbsent(xs, a);
    }
  }

  /** A listener added twice and removed once leaves one `null` slot behind,
      and the next invocation throws a null reference. */
  lemma DuplicateRemovalLeavesNull(a: int)
    ensures RemoveListenerAsWritten([Listener(a), Listener(a)], a) == [Empty]
    ensures Invoke(RemoveListenerAsWritten([Listener(a), Listener(a)], a), (b: int) => false).fault
         == Some(NullReference)
    ensures Invoke(RemoveListener([Listener(a), Listener(a)], a), (b: int) => false) == Trace([], None)
  {
    var xs := [Listener(a), Listener(a)];
    assert Without(xs, a) == [];
    var nulls: seq<Slot<int>> := seq(1, _ => Empty);
    assert nulls == [Empty];
  }
}

=== FILE: game_messages.dfy ===
/** Two game messages: `MoveItemInInventoryMessage`, which the server reads
    (Uchu.World/Packets/GameMessages/Client/MoveItemInInventoryMessage.cs),
    and `TeamAddPlayerMessage`, which it writes
    (Uchu.World/Packets/GameMessages/Server/TeamAddPlayerMessage.cs). Each
    comes with the other side of the wire, so that what one side writes the
    other reads back. */
module GameMessages {
  import opened Outcomes
  import opened Utils
  import opened BitStream

  /** A decoded move request. `destinationInventoryType` is `None` when the
      client left it out, which the message reports as `InventoryType.Invalid`. */
  datatype MoveItemInInventory = MoveItemInInventory(
    destinationInventoryType: Option<Int>,
    itemId: Long,
    currentInventoryType: Int,
    responseCode: Int,
    newSlot: Int)

  /** The bits a move request takes without and with its destination. */
  const MoveBitsShort: nat := 161
  const MoveBitsLong: nat := 193

  /** The flag and, when present, the destination of a move request. */
  function MoveHead(destination: Option<Int>): Stream {
    match destination
    case Some(t) => Flag(true) + [Int32(t)]
    case None => Flag(false)
  }

  /** The client's encoding of a move request. */
  function EncodeMove(m: MoveItemInInventory): (s: Stream)
    ensures FixedWidth(s)
  {
    MoveHead(m.destinationInventoryType)
    + [Int64(m.itemId), Int32(m.currentInventoryType), Int32(m.responseCode), Int32(m.newSlot)]
  }

  /** `Deserialize`: a flag, the destination only when the flag is set, then
      the item id, current inventory, response code and new slot. It returns
      the message and the unread rest of the stream. */
  function DecodeMove(s: Stream): (r: Result<(MoveItemInInventory, Stream)>)
    ensures r.Ok? ==> s == EncodeMove(r.value.0) + r.value.1
    ensures r.Err? ==> r.fault == EndOfStream
  {
    var (destination, s2) :- ReadMoveHead(s);
    var (body, rest) :- ReadMoveBody(s2);
    var (itemId, current, response, slot) := body;
    var m := MoveItemInInventory(destination, itemId, current, response, slot);
    Associate(MoveHead(destination), [Int64(itemId), Int32(current), Int32(response), Int32(slot)], rest);
    Ok((m, rest))
  }

  /** Concatenation of streams is associative. */
  lemma Associate(a: Stream, b: Stream, c: Stream)
    ensures (a + b) + c == a + (b + c)
  {
  }

  /** The flag of a move request and the destination it announces. */
  function ReadMoveHead(s: Stream): (r: Result<(Option<Int>, Stream)>)
    ensures r.Ok? ==> s == MoveHead(r.value.0) + r.value.1
    ensures r.Err? ==> r.fault == EndOfStream
  {
    var (hasDestination, s1) :- ReadBit(s);
    if hasDestination then
      var (t, rest) :- ReadInt32(s1);
      assert s == [Bit(true)] + ([Int32(t)] + rest);
      Associate([Bit(true)], [Int32(t)], rest);
      Ok((Some(t), rest))
    else Ok((None, s1))
  }

  /** The item id, current inventory, response code and new slot of a move
      request. */
  function ReadMoveBody(s: Stream): (r: Result<((Long, Int, Int, Int), Stream)>)
    ensures r.Ok? ==> var (f, rest) := r.value;
      s == [Int64(f.0), Int32(f.1), Int32(f.2), Int32(f.3)] + rest
    ensures r.Err? ==> r.fault == EndOfStream
  {
    var (itemId, s3) :- ReadInt64(s);
    var (current, s4) :- ReadInt32(s3);
    var (response, s5) :- ReadInt32(s4);
    var (slot, s6) :- ReadInt32(s5);
    Ok(((itemId, current, response, slot), s6))
  }

  /** What the client writes, the server reads back, leaving whatever
      follows untouched. */
  lemma MoveRoundTrip(m: MoveItemInInventory, rest: Stream)
    ensures DecodeMove(EncodeMove(m) + rest) == Ok((m, rest))
  {
    var s5 := [Int32(m.newSlot)] + rest;
    var s4 := [Int32(m.responseCode)] + s5;
    var s3 := [Int32(m.currentInventoryType)] + s4;
    var s2 := [Int64(m.itemId)] + s3;
    var s := EncodeMove(m) + rest;
    match m.destinationInventoryType
    case Some(t) =>
      var s1 := [Int32(t)] + s2;
      assert s == [Bit(true)] + s1;
      assert ReadBit(s) == Ok((true, s1));
      assert ReadInt32(s1) == Ok((t, s2));
      MoveBodyRoundTrip(m, rest);
    case None =>
      assert s == [Bit(false)] + s2;
      assert ReadBit(s) == Ok((false, s2));
      MoveBodyRoundTrip(m, rest);
  }

  /** The four fields after the destination read back as written. */
  lemma MoveBodyRoundTrip(m: MoveItemInInventory, rest: Stream)
    ensures var s5 := [Int32(m.newSlot)] + rest;
      var s4 := [Int32(m.responseCode)] + s5;
      var s3 := [Int32(m.currentInventoryType)] + s4;
      var s2 := [Int64(m.itemId)] + s3;
      && ReadInt64(s2) == Ok((m.itemId, s3))
      && ReadInt32(s3) == Ok((m.currentInventoryType, s4))
      && ReadInt32(s4) == Ok((m.responseCode, s5))
      && ReadInt32(s5) == Ok((m.newSlot, rest))
  {
  }

  /** A move request takes 161 bits, or 193 with a destination. */
  lemma MoveBits(m: MoveItemInInventory)
    ensures Bits(EncodeMove(m)) == if m.destinationInventoryType.Some? then MoveBitsLong else MoveBitsShort
  {
    var head := match m.destinationInventoryType case Some(t) => Flag(true) + [Int32(t)] case None => Flag(false);
    var body: Stream := [Int64(m.itemId), Int32(m.currentInventoryType), Int32(m.responseCode), Int32(m.newSlot)];
    assert Bits(body) == 160 by {
      assert Bits(body[3..]) == 32 by { assert body[3..][1..] == []; }
      assert Bits(body[2..]) == 64 by { assert body[2..][1..] == body[3..]; }
      assert Bits(body[1..]) == 96 by { assert body[1..][1..] == body[2..]; }
      assert body[1..] == body[1..];
    }
    if m.destinationInventoryType.Some? {
      assert head[1..][1..] == [];
    }
    BitsAppend(head, body);
  }

  /** Decoding consumes exactly 161 bits, or 193 when the flag is set. */
  lemma DecodeMoveConsumes(s: Stream)
    requires FixedWidth(s)
    requires DecodeMove(s).Ok?
    ensures var (m, rest) := DecodeMove(s).value;
      FixedWidth(rest) &&
      Bits(s) - Bits(rest) == if m.destinationInventoryType.Some? then MoveBitsLong else MoveBitsShort
  {
    var (m, rest) := DecodeMove(s).value;
    assert forall i :: 0 <= i < |rest| ==> rest[i] == s[|EncodeMove(m)| + i];
    BitsAppend(EncodeMove(m), rest);
    MoveBits(m);
  }

  /** A team-member announcement. `worldId` is the zone's world id, an
      unsigned 32-bit value. */
  datatype TeamAddPlayer = TeamAddPlayer(
    isFreeTrail: bool,
    isLocal: bool,
    noLootOnDeath: bool,
    objectId: Long,
    name: string,
    worldId: UInt)

  /** A boolean written as a flag followed, when set, by its value. */
  function FlaggedBool(b: bool): Stream {
    if b then Flag(true) + [Bit(true)] else Flag(false)
  }

  /** The three flagged booleans of an announcement: one bit each, and one
      more behind each that is set. */
  function FlagsPart(m: TeamAddPlayer): (p: Stream)
    ensures |p| == 3 + (if m.isFreeTrail then 1 else 0) + (if m.isLocal then 1 else 0)
                     + (if m.noLootOnDeath then 1 else 0)
    ensures p[0] == Bit(m.isFreeTrail)
    ensures forall i :: 0 <= i < |p| ==> p[i].Bit?
  {
    FlaggedBool(m.isFreeTrail) + FlaggedBool(m.isLocal) + FlaggedBool(m.noLootOnDeath)
  }

  /** The player's object id and wide name, then a false bit. */
  function PlayerPart(m: TeamAddPlayer): Stream {
    [Int64(m.objectId), WideString(m.name), Bit(false)]
  }

  /** The world id as a 16-bit value behind a flag saying it is nonzero;
      the cast to `ushort` keeps the low 16 bits. */
  function WorldPart(worldId: UInt): Stream {
    if worldId != 0 then Flag(true) + [UInt16(worldId % 0x1_0000)] else Flag(false)
  }

  /** `SerializeMessage`. */
  function SerializeTeamAddPlayer(m: TeamAddPlayer): (s: Stream)
    ensures var f := |FlagsPart(m)|;
      && 3 <= f <= 6
      && |s| == f + (if m.worldId != 0 then 5 else 4)
      && s[..f] == FlagsPart(m)
      && s[f..f + 3] == [Int64(m.objectId), WideString(m.name), Bit(false)]
      && s[f + 3] == Bit(m.worldId != 0)
      && (m.worldId != 0 ==> s[f + 4] == UInt16(m.worldId % 0x1_0000))
  {
    FlagsPart(m) + PlayerPart(m) + WorldPart(m.worldId)
  }

  /** A team-member announcement as the client reads it. */
  datatype TeamAddPlayerView = TeamAddPlayerView(
    isFreeTrail: bool,
    isLocal: bool,
    noLootOnDeath: bool,
    objectId: Long,
    name: string,
    worldId: Option<UShort>)

  /** A flagged boolean; an absent value reads as false. */
  function ReadFlaggedBool(s: Stream): (r: Result<(bool, Stream)>)
    ensures r.Ok? ==> |r.value.1| < |s| && r.value.1 == s[|s| - |r.value.1|..]
    ensures r.Err? ==> r.fault == EndOfStream
  {
    var (present, s1) :- ReadBit(s);
    if present then ReadBit(s1) else Ok((false, s1))
  }

  /** The world-id field; absent when its flag is clear. */
  function ReadWorld(s: Stream): (r: Result<(Option<UShort>, Stream)>)
    ensures r.Err? ==> r.fault == EndOfStream
  {
    var (hasWorld, s1) :- ReadBit(s);
    if hasWorld then (var (w, rest) :- ReadUInt16(s1); Ok((Some(w), rest)))
    else Ok((None, s1))
  }

  /** The three flagged booleans. */
  function ReadFlags(s: Stream): (r: Result<((bool, bool, bool), Stream)>)
    ensures r.Err? ==> r.fault == EndOfStream
  {
    var (freeTrail, s1) :- ReadFlaggedBool(s);
    var (local, s2) :- ReadFlaggedBool(s1);
    var (noLoot, s3) :- ReadFlaggedBool(s2);
    Ok(((freeTrail, local, noLoot), s3))
  }

  /** The object id and name, and the bit after them. */
  function ReadPlayer(s: Stream): (r: Result<((Long, string), Stream)>)
    ensures r.Err? ==> r.fault == EndOfStream
  {
    var (objectId, s1) :- ReadInt64(s);
    var (name, s2) :- ReadWideString(s1);
    var (_, s3) :- ReadBit(s2);
    Ok(((objectId, name), s3))
  }

  /** The client's reading of a team-member announcement. */
  function ParseTeamAddPlayer(s: Stream): (r: Result<(TeamAddPlayerView, Stream)>)
    ensures r.Err? ==> r.fault == EndOfStream
  {
    var (flags, s1) :- ReadFlags(s);
    var (player, s2) :- ReadPlayer(s1);
    var (world, s3) :- ReadWorld(s2);
    Ok((TeamAddPlayerView(flags.0, flags.1, flags.2, player.0, player.1, world), s3))
  }

  /** The view the client gets of an announcement: every field as sent,
      the world id cut to its low 16 bits, and absent when it is zero. */
  function Seen(m: TeamAddPlayer): TeamAddPlayerView {
    TeamAddPlayerView(m.isFreeTrail, m.isLocal, m.noLootOnDeath, m.objectId, m.name,
      if m.worldId != 0 then Some(m.worldId % 0x1_0000) else None)
  }

  /** A flagged boolean reads back as written. */
  lemma FlaggedBoolRoundTrip(b: bool, rest: Stream)
    ensures ReadFlaggedBool(FlaggedBool(b) + rest) == Ok((b, rest))
  {
    if b {
      assert FlaggedBool(b) + rest == [Bit(true), Bit(true)] + rest;
    } else {
      assert FlaggedBool(b) + rest == [Bit(false)] + rest;
    }
  }

  /** The world-id field reads back as its low 16 bits, absent when the
      id is zero. */
  lemma WorldRoundTrip(worldId: UInt, rest: Stream)
    ensures ReadWorld(WorldPart(worldId) + rest)
         == Ok((if worldId != 0 then Some(worldId % 0x1_0000) else None, rest))
  {
    if worldId != 0 {
      assert WorldPart(worldId) + rest == [Bit(true), UInt16(worldId % 0x1_0000)] + rest;
    } else {
      assert WorldPart(worldId) + rest == [Bit(false)] + rest;
    }
  }

  /** The flags read back as written. */
  lemma FlagsRoundTrip(m: TeamAddPlayer, rest: Stream)
    ensures ReadFlags(FlagsPart(m) + rest) == Ok(((m.isFreeTrail, m.isLocal, m.noLootOnDeath), rest))
  {
    var s2 := FlaggedBool(m.noLootOnDeath) + rest;
    var s1 := FlaggedBool(m.isLocal) + s2;
    var s := FlaggedBool(m.isFreeTrail) + s1;
    assert FlagsPart(m) + rest == s by {
      assert FlagsPart(m) + rest
          == FlaggedBool(m.isFreeTrail) + (FlaggedBool(m.isLocal) + (FlaggedBool(m.noLootOnDeath) + rest));
    }
    FlaggedBoolRoundTrip(m.isFreeTrail, s1);
    FlaggedBoolRoundTrip(m.isLocal, s2);
    FlaggedBoolRoundTrip(m.noLootOnDeath, rest);
    assert ReadFlags(s) == Ok(((m.isFreeTrail, m.isLocal, m.noLootOnDeath), rest));
  }

  /** The object id and name read back as written. */
  lemma PlayerRoundTrip(m: TeamAddPlayer, rest: Stream)
    ensures ReadPlayer(PlayerPart(m) + rest) == Ok(((m.objectId, m.name), rest))
  {
    var s := PlayerPart(m) + rest;
    assert s[1..] == [WideString(m.name), Bit(false)] + rest;
    assert s[2..] == [Bit(false)] + rest;
  }

  /** An announcement is read part by part: flags, player, world. */
  lemma ParseParts(s: Stream, s1: Stream, s2: Stream, rest: Stream,
                   flags: (bool, bool, bool), player: (Long, string), world: Option<UShort>)
    requires ReadFlags(s) == Ok((flags, s1))
    requires ReadPlayer(s1) == Ok((player, s2))
    requires ReadWorld(s2) == Ok((world, rest))
    ensures ParseTeamAddPlayer(s)
         == Ok((TeamAddPlayerView(flags.0, flags.1, flags.2, player.0, player.1, world), rest))
  {
  }

  /** What the server writes, the client reads back as `Seen`. */
  lemma TeamAddPlayerRoundTrip(m: TeamAddPlayer, rest: Stream)
    ensures ParseTeamAddPlayer(SerializeTeamAddPlayer(m) + rest) == Ok((Seen(m), rest))
  {
    var s2 := WorldPart(m.worldId) + rest;
    var s1 := PlayerPart(m) + s2;
    var s := SerializeTeamAddPlayer(m) + rest;
    assert s == FlagsPart(m) + s1 by {
      assert s == FlagsPart(m) + (PlayerPart(m) + (WorldPart(m.worldId) + rest));
    }
    FlagsRoundTrip(m, s1);
    PlayerRoundTrip(m, s2);
    WorldRoundTrip(m.worldId, rest);
    ParseParts(s, s1, s2, rest, (m.isFreeTrail, m.isLocal, m.noLootOnDeath), (m.objectId, m.name), Seen(m).worldId);
  }

  /** A world id that is a nonzero multiple of 65536 is announced as present
      with the value 0: the flag is computed from the full id, the value is
      its `ushort` cast. */
  lemma WideWorldIdReadsAsZero(m: TeamAddPlayer)
    requires m.worldId != 0 && m.worldId % 0x1_0000 == 0
    ensures Seen(m).worldId == Some(0)
    ensures var s := SerializeTeamAddPlayer(m);
      var f := |FlagsPart(m)|;
      s[f + 3] == Bit(true) && s[f + 4] == UInt16(0)
  {
  }
}

=== FILE: interrupt.dfy ===
/** The interrupt behaviour of a skill (Uchu.World/Behaviors/InterruptBehavior.cs):
    for each field the client sends it reads one bit and writes one false
    bit to the reply, whatever the bit said. What the base behaviour does
    first is not part of this model. */
module Interrupt {
  import opened Outcomes
  import opened BitStream

  /** The behaviour's parameters; only `interruptBlock` affects the stream. */
  datatype InterruptBehavior = InterruptBehavior(
    interruptAttack: Int,
    interruptBlock: Int,
    interruptCharge: Int)

  /** The executing context: whether the branch targets the context's own
      associate, the bits still to read, and the bits written so far. */
  datatype Context = Context(targetIsAssociate: bool, reader: Stream, writer: Stream)

  /** One read, echoed as a false bit. */
  function Step(c: Context): (r: Result<Context>)
    ensures r.Ok? <==> |c.reader| > 0 && c.reader[0].Bit?
    ensures r.Ok? ==> r.value == c.(reader := c.reader[1..], writer := c.writer + [Bit(false)])
  {
    var (_, rest) :- ReadBit(c.reader);
    Ok(c.(reader := rest, writer := c.writer + [Bit(false)]))
  }

  /** `ExecuteAsync`: a step when the target is not the associate, a step
      when blocks are not interrupted, and a final step. */
  function Execute(b: InterruptBehavior, c: Context): (r: Result<Context>)
    ensures r.Err? ==> r.fault == EndOfStream
    ensures r.Ok? ==> r.value.targetIsAssociate == c.targetIsAssociate
  {
    var c1 :- if !c.targetIsAssociate then Step(c) else Ok(c);
    var c2 :- if b.interruptBlock == 0 then Step(c1) else Ok(c1);
    Step(c2)
  }

  /** The number of bits the behaviour reads, and writes. */
  function BitCount(b: InterruptBehavior, targetIsAssociate: bool): (n: nat)
    ensures 1 <= n <= 3
  {
    (if !targetIsAssociate then 1 else 0) + (if b.interruptBlock == 0 then 1 else 0) + 1
  }

  /** The stream starts with at least `n` bits. */
  predicate LeadingBits(s: Stream, n: nat) {
    n <= |s| && forall i :: 0 <= i < n ==> s[i].Bit?
  }

  /** Execution succeeds exactly when the reader starts with enough bits; it
      then consumes that many and appends as many false bits, so the bits
      written do not depend on the bits read. */
  lemma ExecuteReadsAndWrites(b: InterruptBehavior, c: Context)
    ensures var n := BitCount(b, c.targetIsAssociate);
      && (Execute(b, c).Ok? <==> LeadingBits(c.reader, n))
      && (Execute(b, c).Ok? ==>
            && Execute(b, c).value.reader == c.reader[n..]
            && Execute(b, c).value.writer == c.writer + seq(n, _ => Bit(false)))
  {
  }

  /** The reply does not depend on what the client sent: two readers with
      the same number of leading bits give the same writer. */
  lemma ReplyIgnoresInput(b: InterruptBehavior, c: Context, reader: Stream)
    requires Execute(b, c).Ok?
    requires LeadingBits(reader, BitCount(b, c.targetIsAssociate))
    ensures Execute(b, c.(reader := reader)).Ok?
    ensures Execute(b, c.(reader := reader)).value.writer == Execute(b, c).value.writer
  {
    ExecuteReadsAndWrites(b, c);
    ExecuteReadsAndWrites(b, c.(reader := reader));
  }
}

=== FILE: outcomes.dfy ===
/** Failure-carrying result types shared by every module of the model.
    The server reports most failures by throwing a .NET exception; the model
    returns them as values instead, naming the exception in a `Fault`. */
module Outcomes {

  /** A value that may be absent; `None` stands for a C# `null`/`default`. */
  datatype Option<+T> = None | Some(value: T)

  /** The .NET exceptions that the modelled code can raise. */
  datatype Fault =
    | KeyNotFound          // Dictionary indexer on a missing key
    | DuplicateKey         // Dictionary.Add, or a primary-key clash on SaveChanges
    | SequenceEmpty        // Enumerable.First / FirstAsync with no matching element
    | ArgumentOutOfRange   // String.Remove, Enumerable.Repeat, or a rejected packet header
    | DivideByZero         // integer `%` by zero
    | Overflow             // Math.Abs(long.MinValue), or long.MinValue % -1
    | ParameterCount       // MethodInfo.Invoke with the wrong number of arguments
    | NullReference        // invoking a null delegate
    | EndOfStream          // a bit reader running past the end of its data
    | HandlerFault         // an exception thrown by handler code outside the model

  /** Either a value or the fault that replaced it. */
  datatype Result<+T> = Ok(value: T) | Err(fault: Fault) {
    predicate IsFailure() {
      Err?
    }

    function PropagateFailure<U>(): Result<U>
      requires Err?
    {
      Err(fault)
    }

    function Extract(): T
      requires Ok?
    {
      value
    }
  }
}

=== FILE: packet_dispatch.dfy ===
/** Routing of one incoming frame (Uchu.Core/Server.cs, `HandlePacketAsync`).
    The header is taken as already read, as a record; the rest of the frame
    is a field stream. Game messages go to the subscribers of the
    game-message event, every other packet to the handler registered for its
    connection type and packet id. Decoders, handler bodies and subscriber
    bodies are outside the model: whether each succeeds is a parameter. */
module PacketDispatch {
  import opened Outcomes
  import opened Utils
  import opened BitStream
  import opened Registry
  import opened Events

  /** `MessageIdentifier.UserPacketEnum`, the marker of an application
      packet. */
  const UserPacketEnum: nat := 0x53

  /** The packet id reserved for game messages. */
  const GameMessagePacketId: PacketId := 0x05

  /** The fixed-size header of a frame. */
  datatype Header = Header(messageId: nat, connectionType: ConnectionType, packetId: PacketId)

  /** A frame: its header and the fields after it. */
  datatype Frame = Frame(header: Header, payload: Stream)

  /** A subscriber of the game-message event. */
  type Subscriber = nat

  /** What the server did with a frame it accepted. `caught` says that an
      exception was caught and logged. */
  datatype Outcome =
    | GameMessage(objectId: Long, messageId: UShort, body: Stream, ran: seq<Subscriber>, caught: bool)
    | NoHandler
    | Handled(handler: Handler, invoked: bool, caught: bool)

  /** The behaviour of the code outside the model. */
  datatype Environment = Environment(
    subscribers: seq<Subscriber>,
    subscriberThrows: Subscriber -> bool,
    decodes: (PacketType, Stream) -> bool,
    handlerThrows: Handler -> bool)

  /** The subscribers as the slots of the event's delegate list. */
  function SubscriberSlots(subscribers: seq<Subscriber>): (xs: seq<Slot<Subscriber>>)
    ensures |xs| == |subscribers|
    ensures forall i :: 0 <= i < |xs| ==> xs[i] == Listener(subscribers[i])
  {
    seq(|subscribers|, i requires 0 <= i < |subscribers| => Listener(subscribers[i]))
  }

  /** `HandlePacketAsync`. A frame that is not an application packet is
      refused with an exception before anything runs. A game message's
      object id and message id are read outside the exception guard, so a
      short one throws; the subscribers then run in order until one throws,
      and that exception is caught. A regular packet with no handler is
      dropped; otherwise its payload is decoded from just after the header
      and the handler invoked, with any exception of either caught. */
  function HandlePacket(reg: Registry, env: Environment, frame: Frame): (r: Result<Outcome>)
    ensures r == Err(ArgumentOutOfRange) <==> frame.header.messageId != UserPacketEnum
    ensures r.Err? ==> r.fault == ArgumentOutOfRange || r.fault == EndOfStream
    ensures r.Err? && r.fault == EndOfStream ==> frame.header.packetId == GameMessagePacketId
    ensures frame.header.messageId == UserPacketEnum && frame.header.packetId != GameMessagePacketId ==>
      && r.Ok?
      && (r.value.NoHandler? <==> PacketHandler(reg, frame.header.connectionType, frame.header.packetId).None?)
      && (r.value.Handled? ==>
            PacketHandler(reg, frame.header.connectionType, frame.header.packetId) == Some(r.value.handler))
    ensures r.Ok? && frame.header.packetId == GameMessagePacketId ==> r.value.GameMessage?
    ensures frame.header.messageId == UserPacketEnum && frame.header.packetId == GameMessagePacketId ==>
      var p := frame.payload;
      && (r.Ok? <==> |p| >= 2 && p[0].Int64? && p[1].UInt16?)
      && (r.Ok? ==> r.value.objectId == p[0].int64 && r.value.messageId == p[1].uint16 && r.value.body == p[2..])
    ensures r.Ok? && r.value.Handled? ==>
      && r.value.invoked == env.decodes(r.value.handler.packet, frame.payload)
      && r.value.caught == (!r.value.invoked || env.handlerThrows(r.value.handler))
  {
    var header := frame.header;
    if header.messageId != UserPacketEnum then Err(ArgumentOutOfRange)
    else if header.packetId == GameMessagePacketId then
      var (objectId, s1) :- ReadInt64(frame.payload);
      var (messageId, body) :- ReadUInt16(s1);
      var trace := Invoke(SubscriberSlots(env.subscribers), env.subscriberThrows);
      Ok(GameMessage(objectId, messageId, body, trace.ran, trace.fault.Some?))
    else
      match PacketHandler(reg, header.connectionType, header.packetId)
      case None => Ok(NoHandler)
      case Some(handler) =>
        if !env.decodes(handler.packet, frame.payload) then Ok(Handled(handler, false, true))
        else Ok(Handled(handler, true, env.handlerThrows(handler)))
  }

  /** Game messages never consult the handler registry. */
  lemma GameMessagesIgnoreRegistry(reg1: Registry, reg2: Registry, env: Environment, frame: Frame)
    requires frame.header.packetId == GameMessagePacketId
    ensures HandlePacket(reg1, env, frame) == HandlePacket(reg2, env, frame)
  {
  }

  /** The subscribers of a game message run in order up to the first that
      throws; all of them run exactly when none throws, and then nothing is
      caught. */
  lemma SubscribersRunInOrder(reg: Registry, env: Environment, frame: Frame)
    requires HandlePacket(reg, env, frame).Ok?
    requires frame.header.packetId == GameMessagePacketId
    ensures var out := HandlePacket(reg, env, frame).value;
      && |out.ran| <= |env.subscribers|
      && out.ran == env.subscribers[..|out.ran|]
      && (!out.caught <==> forall i :: 0 <= i < |env.subscribers| ==> !env.subscriberThrows(env.subscribers[i]))
      && (!out.caught ==> out.ran == env.subscribers)
      && (out.caught ==>
            exists k :: 0 <= k < |env.subscribers|
              && env.subscriberThrows(env.subscribers[k])
              && (forall j :: 0 <= j < k ==> !env.subscriberThrows(env.subscribers[j]))
              && out.ran == env.subscribers[..k + 1])
  {
    var xs := SubscriberSlots(env.subscribers);
    var t := Invoke(xs, env.subscriberThrows);
    var out := HandlePacket(reg, env, frame).value;
    assert out.ran == t.ran && out.caught == t.fault.Some?;
    InvokeSucceeds(xs, env.subscriberThrows);
    assert (forall i :: 0 <= i < |xs| ==> Passes(xs[i], env.subscriberThrows))
       <==> (forall i :: 0 <= i < |env.subscribers| ==> !env.subscriberThrows(env.subscribers[i]));
    InvokeRunsPrefix(env.subscribers, env.subscriberThrows);
  }

  /** The delegates of the subscriber slots are the subscribers. */
  lemma {:induction false} SlotActions(subscribers: seq<Subscriber>)
    ensures Actions(SubscriberSlots(subscribers)) == subscribers
    decreases |subscribers|
  {
    if |subscribers| > 0 {
      assert SubscriberSlots(subscribers)[1..] == SubscriberSlots(subscribers[1..]);
      SlotActions(subscribers[1..]);
    }
  }

  /** When a subscriber throws, exactly the subscribers up to and including
      the first that throws have run. */
  lemma InvokeStopsAtThrower(subscribers: seq<Subscriber>, throws: Subscriber -> bool)
    ensures var t := Invoke(SubscriberSlots(subscribers), throws);
      t.fault.Some? ==>
        exists k :: 0 <= k < |subscribers|
          && throws(subscribers[k])
          && (forall j :: 0 <= j < k ==> !throws(subscribers[j]))
          && t.ran == subscribers[..k + 1]
  {
    var xs := SubscriberSlots(subscribers);
    var k := FirstFailure(xs, throws);
    InvokeTrace(xs, throws);
    if k < |xs| {
      assert xs[..k] == SubscriberSlots(subscribers[..k]);
      SlotActions(subscribers[..k]);
      assert Invoke(xs, throws).ran == subscribers[..k] + [subscribers[k]];
      assert subscribers[..k] + [subscribers[k]] == subscribers[..k + 1];
      PassingSubscribers(subscribers, throws, k);
    }
  }

  /** The subscribers before the first failing slot do not throw, and the
      one in that slot does. */
  lemma PassingSubscribers(subscribers: seq<Subscriber>, throws: Subscriber -> bool, k: nat)
    requires k == FirstFailure(SubscriberSlots(subscribers), throws) && k < |subscribers|
    ensures throws(subscribers[k])
    ensures forall j :: 0 <= j < k ==> !throws(subscribers[j])
  {
    var xs := SubscriberSlots(subscribers);
    assert !Passes(xs[k], throws);
    forall j | 0 <= j < k
      ensures !throws(subscribers[j])
    {
      assert Passes(xs[j], throws);
    }
  }


  /** Invoking the subscribers runs a prefix of them: all of them when none
      throws, and otherwise exactly those up to the first that throws. */
  lemma {:induction false} InvokeRunsPrefix(subscribers: seq<Subscriber>, throws: Subscriber -> bool)
    ensures var t := Invoke(SubscriberSlots(subscribers), throws);
      && |t.ran| <= |subscribers|
      && t.ran == subscribers[..|t.ran|]
      && (t.fault.None? ==> t.ran == subscribers)
      && (t.fault.Some? ==>
            exists k :: 0 <= k < |subscribers|
              && throws(subscribers[k])
              && (forall j :: 0 <= j < k ==> !throws(subscribers[j]))
              && t.ran == subscribers[..k + 1])
    decreases |subscribers|
  {
    InvokeStopsAtThrower(subscribers, throws);
    var xs := SubscriberSlots(subscribers);
    if |subscribers| > 0 {
      assert xs[1..] == SubscriberSlots(subscribers[1..]);
      InvokeRunsPrefix(subscribers[1..], throws);
    }
  }

  /** A regular frame accepted at start-up is handled by the last method
      bound to its key, the game's methods coming after the server's own,
      and dropped when no method is bound to it. */
  lemma StartupRouting(core: seq<HandlerGroup>, game: seq<HandlerGroup>, env: Environment, frame: Frame)
    requires frame.header.messageId == UserPacketEnum && frame.header.packetId != GameMessagePacketId
    ensures var ds := Declarations(core) + Declarations(game);
      var (t, p) := (frame.header.connectionType, frame.header.packetId);
      var r := HandlePacket(StartupRegistry(core, game), env, frame);
      && (r == Ok(NoHandler) <==> forall i :: 0 <= i < |ds| ==> !BindsPacket(ds[i], t, p))
      && forall i :: 0 <= i < |ds| && BindsPacket(ds[i], t, p)
                     && (forall j :: i < j < |ds| ==> !BindsPacket(ds[j], t, p)) ==>
           r.Ok? && r.value.Handled? && r.value.handler == BindingOf(ds[i]).handler
  {
    StartupPacketLastWins(core, game, frame.header.connectionType, frame.header.packetId);
  }
}

=== FILE: records.dfy ===
/** The shared records through which server processes coordinate: server
    specifications and world-server requests, kept in one durable store that
    every process reads and writes. Tables are sequences in store order, so
    that `First`/`FirstOrDefault` pick a well-defined row. */
module Records {
  import opened Outcomes
  import Sequences

  /** A globally unique identifier. */
  type Guid = nat

  /** `Guid.Empty`, the value of an identifier nobody has set. */
  const EmptyGuid: Guid := 0

  /** The role of a server process; only the world role matters here. */
  datatype ServerType = World | OtherRole(code: nat)

  /** One running or pending server process. */
  datatype ServerSpecification = ServerSpecification(
    id: Guid,
    serverType: ServerType,
    port: int,
    zoneId: int,
    activeUserCount: int,
    maxUserCount: int)

  /** The lifecycle of a world-server request. Any other stored value of the
      enumeration is `Unrecognised`. */
  datatype RequestState = Unanswered | Answered | Complete | Error | Unrecognised(code: int)

  /** A request for a world server for one zone; `specificationId` names the
      server that answered it. */
  datatype WorldServerRequest = WorldServerRequest(
    id: Guid,
    zoneId: int,
    state: RequestState,
    specificationId: Guid)

  /** The durable store: the Specifications and WorldServerRequests tables. */
  datatype Store = Store(specifications: seq<ServerSpecification>, requests: seq<WorldServerRequest>)

  /** The first request row with identifier `id`. */
  function RequestIndex(requests: seq<WorldServerRequest>, id: Guid): (r: Option<nat>)
    ensures r.Some? ==> r.value < |requests| && requests[r.value].id == id
    ensures r.Some? ==> forall j :: 0 <= j < r.value ==> requests[j].id != id
    ensures r.None? <==> forall j :: 0 <= j < |requests| ==> requests[j].id != id
  {
    Sequences.FindFirst(requests, (q: WorldServerRequest) => q.id == id)
  }

  /** The first specification row with identifier `id`. */
  function SpecificationIndex(specifications: seq<ServerSpecification>, id: Guid): (r: Option<nat>)
    ensures r.Some? ==> r.value < |specifications| && specifications[r.value].id == id
    ensures r.Some? ==> forall j :: 0 <= j < r.value ==> specifications[j].id != id
    ensures r.None? <==> forall j :: 0 <= j < |specifications| ==> specifications[j].id != id
  {
    Sequences.FindFirst(specifications, (s: ServerSpecification) => s.id == id)
  }
}

=== FILE: registry.dfy ===
/** The handler registry built at startup (Uchu.Core/Server.cs,
    `RegisterAssembly`). The server discovers handler methods by reflection;
    here each handler group lists its methods explicitly, with the attributes
    and parameter shapes reflection would report, and a handler method is
    named by an abstract identifier instead of a `MethodInfo`. */
module Registry {
  import opened Outcomes
  import opened Table
  import Sequences

  /** A `RemoteConnectionType` value. */
  type ConnectionType = nat

  /** A packet identifier within its connection type. */
  type PacketId = nat

  /** One handler method. */
  type HandlerId = nat

  /** One handler-group instance. */
  type GroupId = nat

  /** A `GameMasterLevel`; levels compare as integers. */
  type Level = int

  /** A packet type, with the connection type and packet id it carries by
      default. */
  datatype PacketType = PacketType(name: string, connectionType: ConnectionType, packetId: PacketId)

  /** `[PacketHandler]`, whose two settings are optional overrides. */
  datatype PacketAttribute = PacketAttribute(connectionType: Option<ConnectionType>, packetId: Option<PacketId>)

  /** `[CommandHandler]`. */
  datatype CommandAttribute = CommandAttribute(prefix: char, signature: string, level: Level, help: string)

  /** The type of a method parameter, as far as registration looks at it. */
  datatype Parameter = PacketParameter(packet: PacketType) | OtherParameter

  /** A method of a handler group, with the attributes it carries. */
  datatype Method = Method(
    id: HandlerId,
    isStatic: bool,
    isAbstract: bool,
    packetAttribute: Option<PacketAttribute>,
    commandAttribute: Option<CommandAttribute>,
    parameters: seq<Parameter>)

  /** A handler group and its methods, in reflection order. */
  datatype HandlerGroup = HandlerGroup(id: GroupId, methods: seq<Method>)

  /** One method of one group, in registration order. */
  datatype Declaration = Declaration(group: GroupId, member: Method)

  /** A registered packet handler: the group, the method, and the packet
      instance frames are decoded into. */
  datatype Handler = Handler(group: GroupId, target: HandlerId, packet: PacketType)

  /** A registered command handler. `arity` is the method's parameter count. */
  datatype CommandHandler = CommandHandler(
    group: GroupId,
    target: HandlerId,
    level: Level,
    help: string,
    signature: string,
    consoleCommand: bool,
    arity: nat)

  /** Packet handlers by connection type then packet id; command handlers by
      prefix then signature. */
  datatype Registry = Registry(
    packets: Dict<ConnectionType, Dict<PacketId, Handler>>,
    commands: Dict<char, Dict<string, CommandHandler>>)

  const Empty: Registry := Registry([], [])

  /** What registering one method does. */
  datatype Binding =
    | PacketBinding(connectionType: ConnectionType, packetId: PacketId, handler: Handler)
    | CommandBinding(prefix: char, signature: string, command: CommandHandler)
    | NoBinding

  /** The binding a method contributes. Static and abstract methods are
      skipped. A packet attribute takes precedence over a command attribute;
      its method must take a packet first, or it is skipped. The key is the
      attribute's override where given and the packet's default otherwise.
      A command is console-eligible unless it takes exactly two parameters. */
  function BindingOf(d: Declaration): (b: Binding)
    ensures b.PacketBinding? ==>
      && d.member.packetAttribute.Some?
      && |d.member.parameters| > 0 && d.member.parameters[0].PacketParameter?
      && var attr, packet := d.member.packetAttribute.value, d.member.parameters[0].packet;
      && b.connectionType == (if attr.connectionType.Some? then attr.connectionType.value else packet.connectionType)
      && b.packetId == (if attr.packetId.Some? then attr.packetId.value else packet.packetId)
      && b.handler == Handler(d.group, d.member.id, packet)
    ensures b.CommandBinding? ==>
      && d.member.packetAttribute.None? && d.member.commandAttribute.Some?
      && var c, n := d.member.commandAttribute.value, |d.member.parameters|;
      && b.prefix == c.prefix && b.signature == c.signature
      && b.command == CommandHandler(d.group, d.member.id, c.level, c.help, c.signature, n != 2, n)
    ensures b.NoBinding? <==>
      || d.member.isStatic || d.member.isAbstract
      || (d.member.packetAttribute.Some?
          && (|d.member.parameters| == 0 || !d.member.parameters[0].PacketParameter?))
      || (d.member.packetAttribute.None? && d.member.commandAttribute.None?)
  {
    var m := d.member;
    if m.isStatic || m.isAbstract then NoBinding
    else match m.packetAttribute
      case Some(attr) =>
        if |m.parameters| == 0 || !m.parameters[0].PacketParameter? then NoBinding
        else
          var packet := m.parameters[0].packet;
          var connectionType := match attr.connectionType case Some(t) => t case None => packet.connectionType;
          var packetId := match attr.packetId case Some(p) => p case None => packet.packetId;
          PacketBinding(connectionType, packetId, Handler(d.group, m.id, packet))
      case None =>
        match m.commandAttribute
        case None => NoBinding
        case Some(c) =>
          CommandBinding(c.prefix, c.signature,
            CommandHandler(d.group, m.id, c.level, c.help, c.signature, |m.parameters| != 2, |m.parameters|))
  }

  /** Registers one method: the binding overwrites whatever its key held,
      and the other kind of handler is left alone. */
  function Register(reg: Registry, d: Declaration): (r: Registry)
    ensures BindingOf(d).NoBinding? ==> r == reg
    ensures BindingOf(d).PacketBinding? ==>
      && r.commands == reg.commands
      && PacketHandler(r, BindingOf(d).connectionType, BindingOf(d).packetId) == Some(BindingOf(d).handler)
    ensures BindingOf(d).CommandBinding? ==>
      && r.packets == reg.packets
      && CommandFor(r, BindingOf(d).prefix, BindingOf(d).signature) == Some(BindingOf(d).command)
  {
    match BindingOf(d)
    case PacketBinding(t, p, h) => reg.(packets := PutNested(reg.packets, t, p, h))
    case CommandBinding(prefix, signature, c) => reg.(commands := PutNested(reg.commands, prefix, signature, c))
    case NoBinding => reg
  }

  /** Registers the methods in order. Methods that bind no packet handler
      leave the packet table alone, and likewise for commands. */
  function RegisterAll(reg: Registry, ds: seq<Declaration>): (r: Registry)
    ensures (forall i :: 0 <= i < |ds| ==> !BindingOf(ds[i]).PacketBinding?) ==> r.packets == reg.packets
    ensures (forall i :: 0 <= i < |ds| ==> !BindingOf(ds[i]).CommandBinding?) ==> r.commands == reg.commands
    decreases |ds|
  {
    if |ds| == 0 then reg else Register(RegisterAll(reg, ds[..|ds| - 1]), ds[|ds| - 1])
  }

  /** The methods of the groups, group by group. */
  function Declarations(groups: seq<HandlerGroup>): (ds: seq<Declaration>)
    decreases |groups|
  {
    if |groups| == 0 then []
    else
      var g := groups[0];
      seq(|g.methods|, i requires 0 <= i < |g.methods| => Declaration(g.id, g.methods[i]))
        + Declarations(groups[1..])
  }

  /** `RegisterAssembly`: every method of every handler group, in order. It
      files each command handler under the signature it carries. */
  function RegisterAssembly(reg: Registry, groups: seq<HandlerGroup>): (r: Registry)
    ensures CommandsKeyed(reg.commands) ==> CommandsKeyed(r.commands)
  {
    if CommandsKeyed(reg.commands) then
      RegisterAllKeyed(reg, Declarations(groups));
      RegisterAll(reg, Declarations(groups))
    else RegisterAll(reg, Declarations(groups))
  }

  /** The registry `StartAsync` builds: the server's own handler groups, then
      those of the game assembly. */
  function StartupRegistry(core: seq<HandlerGroup>, game: seq<HandlerGroup>): (r: Registry)
    ensures CommandsKeyed(r.commands)
    ensures r == RegisterAll(Empty, Declarations(core) + Declarations(game))
  {
    RegisterAllAppend(Empty, Declarations(core), Declarations(game));
    RegisterAssembly(RegisterAssembly(Empty, core), game)
  }

  /** The packet handler for a key, if one is registered: it misses exactly
      when the connection type has no table or its table lacks the id. */
  function PacketHandler(reg: Registry, t: ConnectionType, p: PacketId): (r: Option<Handler>)
    ensures t !in Keys(reg.packets) ==> r.None?
    ensures Get(reg.packets, t).Some? ==> (r.None? <==> p !in Keys(Get(reg.packets, t).value))
    ensures r.Some? ==> Get(reg.packets, t).Some? && Entry(p, r.value) in Get(reg.packets, t).value
  {
    var inner := match Get(reg.packets, t) case Some(d) => d case None => [];
    GetSpec(reg.packets, t);
    GetSpec(inner, p);
    GetNested(reg.packets, t, p)
  }

  /** The command handler for a prefix and signature, if one is registered:
      it misses exactly when the prefix has no group or its group lacks the
      signature. */
  function CommandFor(reg: Registry, prefix: char, signature: string): (r: Option<CommandHandler>)
    ensures prefix !in Keys(reg.commands) ==> r.None?
    ensures Get(reg.commands, prefix).Some? ==> (r.None? <==> signature !in Keys(Get(reg.commands, prefix).value))
    ensures r.Some? ==> Get(reg.commands, prefix).Some? && Entry(signature, r.value) in Get(reg.commands, prefix).value
  {
    var inner := match Get(reg.commands, prefix) case Some(d) => d case None => [];
    GetSpec(reg.commands, prefix);
    GetSpec(inner, signature);
    GetNested(reg.commands, prefix, signature)
  }

  /** Every command handler is filed under its own signature. */
  predicate CommandsKeyed(commands: Dict<char, Dict<string, CommandHandler>>) {
    forall g, e :: g in commands && e in g.value ==> e.value.signature == e.key
  }

  /** Registration files each command handler under its own signature, so
      a registry built from nothing keeps every handler under its signature. */
  lemma {:induction false} RegisterAllKeyed(reg: Registry, ds: seq<Declaration>)
    requires CommandsKeyed(reg.commands)
    ensures CommandsKeyed(RegisterAll(reg, ds).commands)
    decreases |ds|
  {
    if |ds| > 0 {
      var before := RegisterAll(reg, ds[..|ds| - 1]);
      RegisterAllKeyed(reg, ds[..|ds| - 1]);
      match BindingOf(ds[|ds| - 1])
      case CommandBinding(prefix, signature, c) =>
        var inner := match Get(before.commands, prefix) case Some(t) => t case None => [];
        assert forall e :: e in inner ==> e.value.signature == e.key by {
          GetSpec(before.commands, prefix);
        }
        PutEntries(inner, signature, c);
        PutEntries(before.commands, prefix, Put(inner, signature, c));
      case PacketBinding(_, _, _) =>
      case NoBinding =>
    }
  }

  /** `d` registers a packet handler under (`t`, `p`). */
  predicate BindsPacket(d: Declaration, t: ConnectionType, p: PacketId) {
    var b := BindingOf(d);
    b.PacketBinding? && b.connectionType == t && b.packetId == p
  }

  /** `d` registers a command handler under (`prefix`, `signature`). */
  predicate BindsCommand(d: Declaration, prefix: char, signature: string) {
    var b := BindingOf(d);
    b.CommandBinding? && b.prefix == prefix && b.signature == signature
  }

  /** The position of the last method of `ds` bound to a packet key. */
  function LastPacketBinder(ds: seq<Declaration>, t: ConnectionType, p: PacketId): Option<nat> {
    Sequences.FindLast(ds, (d: Declaration) => BindsPacket(d, t, p))
  }

  /** The position of the last method of `ds` bound to a command key. */
  function LastCommandBinder(ds: seq<Declaration>, prefix: char, signature: string): Option<nat> {
    Sequences.FindLast(ds, (d: Declaration) => BindsCommand(d, prefix, signature))
  }

  /** Registering one method changes the packet lookup at its own key only. */
  lemma RegisterPacketStep(reg: Registry, d: Declaration, t: ConnectionType, p: PacketId)
    ensures PacketHandler(Register(reg, d), t, p)
         == if BindsPacket(d, t, p) then Some(BindingOf(d).handler) else PacketHandler(reg, t, p)
  {
    match BindingOf(d)
    case PacketBinding(t', p', h) =>
      if t' != t || p' != p {
        GetNestedPutOther(reg.packets, t', p', h, t, p);
      }
    case CommandBinding(_, _, _) =>
    case NoBinding =>
  }

  /** Registering one method changes the command lookup at its own key only. */
  lemma RegisterCommandStep(reg: Registry, d: Declaration, prefix: char, signature: string)
    ensures CommandFor(Register(reg, d), prefix, signature)
         == if BindsCommand(d, prefix, signature) then Some(BindingOf(d).command) else CommandFor(reg, prefix, signature)
  {
    match BindingOf(d)
    case CommandBinding(prefix', signature', c) =>
      if prefix' != prefix || signature' != signature {
        GetNestedPutOther(reg.commands, prefix', signature', c, prefix, signature);
      }
    case PacketBinding(_, _, _) =>
    case NoBinding =>
  }

  /** The packet lookup after registering `ds` answers with the LAST method
      of `ds` bound to the key, and falls back to the earlier registry when no
      method of `ds` is. */
  lemma {:induction false} PacketLastWins(reg: Registry, ds: seq<Declaration>, t: ConnectionType, p: PacketId)
    ensures PacketHandler(RegisterAll(reg, ds), t, p)
         == match LastPacketBinder(ds, t, p)
            case None => PacketHandler(reg, t, p)
            case Some(i) => Some(BindingOf(ds[i]).handler)
    decreases |ds|
  {
    if |ds| > 0 {
      var n := |ds| - 1;
      var earlier := ds[..n];
      PacketLastWins(reg, earlier, t, p);
      RegisterPacketStep(RegisterAll(reg, earlier), ds[n], t, p);
      if !BindsPacket(ds[n], t, p) {
        assert LastPacketBinder(ds, t, p) == LastPacketBinder(earlier, t, p);
        match LastPacketBinder(earlier, t, p)
        case None =>
        case Some(i) => assert earlier[i] == ds[i];
      }
    }
  }

  /** The command lookup after registering `ds` answers with the LAST method
      of `ds` bound to the prefix and signature, and falls back to the earlier
      registry when no method of `ds` is. */
  lemma {:induction false} CommandLastWins(reg: Registry, ds: seq<Declaration>, prefix: char, signature: string)
    ensures CommandFor(RegisterAll(reg, ds), prefix, signature)
         == match LastCommandBinder(ds, prefix, signature)
            case None => CommandFor(reg, prefix, signature)
            case Some(i) => Some(BindingOf(ds[i]).command)
    decreases |ds|
  {
    if |ds| > 0 {
      var n := |ds| - 1;
      var earlier := ds[..n];
      CommandLastWins(reg, earlier, prefix, signature);
      RegisterCommandStep(RegisterAll(reg, earlier), ds[n], prefix, signature);
      if !BindsCommand(ds[n], prefix, signature) {
        assert LastCommandBinder(ds, prefix, signature) == LastCommandBinder(earlier, prefix, signature);
        match LastCommandBinder(earlier, prefix, signature)
        case None =>
        case Some(i) => assert earlier[i] == ds[i];
      }
    }
  }

  /** Registering two lists one after the other is registering their
      concatenation. */
  lemma {:induction false} RegisterAllAppend(reg: Registry, a: seq<Declaration>, b: seq<Declaration>)
    ensures RegisterAll(RegisterAll(reg, a), b) == RegisterAll(reg, a + b)
    decreases |b|
  {
    if |b| == 0 {
      assert a + b == a;
    } else {
      RegisterAllAppend(reg, a, b[..|b| - 1]);
      assert (a + b)[..|a + b| - 1] == a + b[..|b| - 1];
    }
  }

  /** The last binder of a key is the binding position with no binding
      position after it. */
  lemma LastPacketBinderIs(ds: seq<Declaration>, t: ConnectionType, p: PacketId, i: nat)
    requires i < |ds| && BindsPacket(ds[i], t, p)
    requires forall j :: i < j < |ds| ==> !BindsPacket(ds[j], t, p)
    ensures LastPacketBinder(ds, t, p) == Some(i)
  {
  }

  /** The startup registry registers the server's declarations, then the
      game's. */
  lemma StartupIsRegisterAll(core: seq<HandlerGroup>, game: seq<HandlerGroup>)
    ensures StartupRegistry(core, game) == RegisterAll(Empty, Declarations(core) + Declarations(game))
  {
    RegisterAllAppend(Empty, Declarations(core), Declarations(game));
  }

  /** Every command handler of the startup registry is filed under its own
      signature. */
  lemma StartupCommandsKeyed(core: seq<HandlerGroup>, game: seq<HandlerGroup>)
    ensures CommandsKeyed(StartupRegistry(core, game).commands)
  {
    StartupIsRegisterAll(core, game);
    RegisterAllKeyed(Empty, Declarations(core) + Declarations(game));
  }

  /** At startup, a packet key is handled by the last method bound to it,
      the game's methods coming after the server's own; a key no method is
      bound to has no handler. */
  lemma StartupPacketLastWins(core: seq<HandlerGroup>, game: seq<HandlerGroup>, t: ConnectionType, p: PacketId)
    ensures var ds := Declarations(core) + Declarations(game);
      && ((forall i :: 0 <= i < |ds| ==> !BindsPacket(ds[i], t, p)) <==>
            PacketHandler(StartupRegistry(core, game), t, p).None?)
      && forall i :: 0 <= i < |ds| && BindsPacket(ds[i], t, p)
                     && (forall j :: i < j < |ds| ==> !BindsPacket(ds[j], t, p)) ==>
           PacketHandler(StartupRegistry(core, game), t, p) == Some(BindingOf(ds[i]).handler)
  {
    var ds := Declarations(core) + Declarations(game);
    StartupIsRegisterAll(core, game);
    PacketLastWins(Empty, ds, t, p);
    var last := LastPacketBinder(ds, t, p);
    assert last.None? <==> forall i :: 0 <= i < |ds| ==> !BindsPacket(ds[i], t, p);
    forall i | 0 <= i < |ds| && BindsPacket(ds[i], t, p) && (forall j :: i < j < |ds| ==> !BindsPacket(ds[j], t, p))
      ensures PacketHandler(StartupRegistry(core, game), t, p) == Some(BindingOf(ds[i]).handler)
    {
      LastPacketBinderIs(ds, t, p, i);
    }
  }
}

=== FILE: sequences.dfy ===
/** The LINQ-style queries the server runs over its tables:
    `First`/`FirstOrDefault` by predicate, and removal of one row. */
module Sequences {
  import opened Outcomes

  /** The position of the first element satisfying `p`, if any. */
  function FindFirst<T>(s: seq<T>, p: T -> bool): (r: Option<nat>)
    ensures r.Some? ==> r.value < |s| && p(s[r.value])
    ensures r.Some? ==> forall j :: 0 <= j < r.value ==> !p(s[j])
    ensures r.None? <==> forall j :: 0 <= j < |s| ==> !p(s[j])
    decreases |s|
  {
    if |s| == 0 then None
    else if p(s[0]) then Some(0)
    else
      match FindFirst(s[1..], p)
      case None => None
      case Some(i) => Some(i + 1)
  }

  /** The position of the last element satisfying `p`, if any. */
  function FindLast<T>(s: seq<T>, p: T -> bool): (r: Option<nat>)
    ensures r.Some? ==> r.value < |s| && p(s[r.value])
    ensures r.Some? ==> forall j :: r.value < j < |s| ==> !p(s[j])
    ensures r.None? <==> forall j :: 0 <= j < |s| ==> !p(s[j])
    decreases |s|
  {
    if |s| == 0 then None
    else if p(s[|s| - 1]) then Some(|s| - 1)
    else FindLast(s[..|s| - 1], p)
  }

  /** `s` without its element at `i`; the others keep their order. */
  function RemoveAt<T>(s: seq<T>, i: nat): (r: seq<T>)
    requires i < |s|
    ensures |r| == |s| - 1
    ensures forall j :: 0 <= j < i ==> r[j] == s[j]
    ensures forall j :: i <= j < |r| ==> r[j] == s[j + 1]
  {
    s[..i] + s[i + 1..]
  }
}

=== FILE: server_helper.dfy ===
/** World-server allocation (Uchu.Core/Utilities/ServerHelper.cs,
    `RequestWorldServerAsync`): reuse a world server of the zone that has
    room, or file a request and poll it a bounded number of times until some
    other process answers it.

    Other processes act on the request and on the specification table
    between polls; what they did is an input, one `Poll` per read of the
    request. A poll past the end of that input sees the store as the previous
    read left it. The 100 ms delay between polls is not modelled: the bound
    is a number of reads. */
module ServerHelper {
  import opened Outcomes
  import opened Records
  import Sequences

  /** The number of times the request is read before giving up. */
  const PollBudget: nat := 1000

  /** What other processes did before one read of the request: set its
      state and answering specification, leaving the specification table as
      `specifications` for that read and the lookup after it; or delete the
      request. */
  datatype Poll =
    | Seen(state: RequestState, specificationId: Guid, specifications: seq<ServerSpecification>)
    | Vanished

  /** The outcome of one allocation: the specification handed back (`None`
      is the C# `default`), the store afterwards, and how many times the
      request was read. */
  datatype Allocation = Allocation(spec: Option<ServerSpecification>, store: Store, polls: nat)

  /** A world server of `zone` that still has room for a user. */
  predicate HasRoom(s: ServerSpecification, zone: int) {
    s.serverType == World && s.zoneId == zone && s.activeUserCount < s.maxUserCount
  }

  /** The states in which the requester keeps waiting. */
  predicate IsWaiting(state: RequestState) {
    state.Unanswered? || state.Answered?
  }

  /** The first world server of the zone with room, in store order. */
  function FindWorldServer(specifications: seq<ServerSpecification>, zone: int): (r: Option<nat>)
    ensures r.Some? ==> r.value < |specifications| && HasRoom(specifications[r.value], zone)
    ensures r.Some? ==> forall j :: 0 <= j < r.value ==> !HasRoom(specifications[j], zone)
    ensures r.None? <==> forall j :: 0 <= j < |specifications| ==> !HasRoom(specifications[j], zone)
  {
    Sequences.FindFirst(specifications, (s: ServerSpecification) => HasRoom(s, zone))
  }

  /** The store after other processes acted as `poll` says on the row with
      identifier `id` and on the specification table. */
  function Apply(store: Store, id: Guid, poll: Poll): Store {
    match poll
    case Vanished =>
      (match RequestIndex(store.requests, id)
       case None => store
       case Some(i) => store.(requests := Sequences.RemoveAt(store.requests, i)))
    case Seen(state, specificationId, specifications) =>
      var requests :=
        match RequestIndex(store.requests, id)
        case None => store.requests
        case Some(i) => store.requests[i := store.requests[i].(state := state, specificationId := specificationId)];
      Store(specifications, requests)
  }

  /** The poll loop, with `timeout` reads left of `PollBudget`: each read
      looks the request up (`FirstAsync` throws if it is gone) and keeps
      waiting, completes, or gives up on its state. */
  function PollLoop(store: Store, id: Guid, observed: seq<Poll>, timeout: nat): (r: Result<Allocation>)
    requires timeout <= PollBudget
    ensures r.Ok? ==> 0 < r.value.polls <= PollBudget
    ensures r.Ok? && r.value.spec.Some? ==> r.value.spec.value in r.value.store.specifications
    ensures r.Ok? && PollBudget - timeout >= |observed| ==> r.value.store.specifications == store.specifications
    decreases timeout
  {
    if timeout == 0 then
      Ok(Allocation(None, store, PollBudget))
    else
      var k := PollBudget - timeout;
      var current := if k < |observed| then Apply(store, id, observed[k]) else store;
      var requests := current.requests;
      match RequestIndex(requests, id)
      case None => Err(SequenceEmpty)
      case Some(i) =>
        var request := requests[i];
        if IsWaiting(request.state) then
          PollLoop(current, id, observed, timeout - 1)
        else if request.state.Complete? then
          var finished := current.(requests := Sequences.RemoveAt(requests, i));
          match SpecificationIndex(finished.specifications, request.specificationId)
          case None => Err(SequenceEmpty)
          case Some(j) => Ok(Allocation(Some(finished.specifications[j]), finished, k + 1))
        else
          Ok(Allocation(None, current, k + 1))
  }

  /** The request row filed for `zone` under the fresh identifier `id`. */
  function NewRequest(id: Guid, zone: int): WorldServerRequest {
    WorldServerRequest(id, zone, Unanswered, EmptyGuid)
  }

  /** `RequestWorldServerAsync(zone)`, with `id` the fresh `Guid.NewGuid()`.
      Reusing an existing server files no request and reads nothing; a
      request row with an identifier already in the table violates its
      primary key. */
  function RequestWorldServer(store: Store, zone: int, id: Guid, observed: seq<Poll>): (r: Result<Allocation>)
    ensures FindWorldServer(store.specifications, zone).Some? ==>
      r == Ok(Allocation(Some(store.specifications[FindWorldServer(store.specifications, zone).value]), store, 0))
    ensures r.Ok? && r.value.polls == 0 ==> r.value.spec.Some? && HasRoom(r.value.spec.value, zone)
    ensures r.Ok? ==> r.value.polls <= PollBudget
    ensures FindWorldServer(store.specifications, zone).None? && RequestIndex(store.requests, id).Some? ==>
      r == Err(DuplicateKey)
  {
    match FindWorldServer(store.specifications, zone)
    case Some(i) => Ok(Allocation(Some(store.specifications[i]), store, 0))
    case None =>
      if RequestIndex(store.requests, id).Some? then Err(DuplicateKey)
      else PollLoop(store.(requests := store.requests + [NewRequest(id, zone)]), id, observed, PollBudget)
  }

  /** The first read at or after `from` whose observation is decisive (not
      a waiting state), or `|observed|` when there is none: from there on
      every read sees the request unchanged. */
  function FirstDecisive(observed: seq<Poll>, from: nat): (n: nat)
    ensures from <= n
    ensures n <= |observed| || n == from
    ensures forall j :: from <= j < n && j < |observed| ==> observed[j].Seen? && IsWaiting(observed[j].state)
    ensures n < |observed| ==> !(observed[n].Seen? && IsWaiting(observed[n].state))
    decreases |observed| - from
  {
    if from >= |observed| then from
    else if observed[from].Seen? && IsWaiting(observed[from].state) then FirstDecisive(observed, from + 1)
    else from
  }

  /** The specification table left by the reads from `from` to the end of
      the budget, starting from `specs`: each `Seen` observation replaces it. */
  function SpecsAfter(specs: seq<ServerSpecification>, observed: seq<Poll>, from: nat): seq<ServerSpecification>
    decreases PollBudget - from
  {
    if from >= |observed| || from >= PollBudget then specs
    else SpecsAfter(if observed[from].Seen? then observed[from].specifications else specs, observed, from + 1)
  }

  /** The allocation gave up after `PollBudget` reads: no specification, the
      table `specs`, and the filed request (identifier `id`, zone `zone`,
      still waiting) left in the store behind the rows that were there
      before. */
  ghost predicate TimedOut(r: Result<Allocation>, specs: seq<ServerSpecification>,
                           before: seq<WorldServerRequest>, id: Guid, zone: int) {
    && r.Ok?
    && r.value.spec.None?
    && r.value.polls == PollBudget
    && r.value.store.specifications == specs
    && |r.value.store.requests| == |before| + 1
    && r.value.store.requests[..|before|] == before
    && var left := r.value.store.requests[|before|];
       left.id == id && left.zoneId == zone && IsWaiting(left.state)
  }

  /** The result of an allocation that ended on the decisive observation
      `poll`, at read number `polls`: a vanished request makes the read
      throw; a completed one is removed and its specification looked up in
      the table as that observation leaves it (the lookup throws if there is
      none); any other state returns `default` and leaves the request, in
      that state, in the store. */
  function Settlement(before: seq<WorldServerRequest>, id: Guid, zone: int, poll: Poll, polls: nat): Result<Allocation> {
    match poll
    case Vanished => Err(SequenceEmpty)
    case Seen(state, specificationId, table) =>
      if state.Complete? then
        match SpecificationIndex(table, specificationId)
        case None => Err(SequenceEmpty)
        case Some(j) => Ok(Allocation(Some(table[j]), Store(table, before), polls))
      else
        Ok(Allocation(None, Store(table, before + [WorldServerRequest(id, zone, state, specificationId)]), polls))
  }

  /** A row whose identifier is in no earlier row is found at the end. */
  lemma FiledRequestIsLast(before: seq<WorldServerRequest>, row: WorldServerRequest)
    requires RequestIndex(before, row.id).None?
    ensures RequestIndex(before + [row], row.id) == Some(|before|)
  {
    var all := before + [row];
    assert all[|before|].id == row.id;
    assert forall j :: 0 <= j < |before| ==> all[j].id != row.id by {
      forall j | 0 <= j < |before|
        ensures all[j].id != row.id
      {
        assert all[j] == before[j];
      }
    }
  }

  /** One read of the poll loop over a store holding the filed request last:
      with no observation left the store is read unchanged; a waiting state
      moves on to the next read with the row and the table updated; any
      other observation ends the allocation as `Settlement` says. */
  lemma PollStep(specs: seq<ServerSpecification>, before: seq<WorldServerRequest>,
                 row: WorldServerRequest, observed: seq<Poll>, timeout: nat)
    requires 0 < timeout <= PollBudget
    requires RequestIndex(before, row.id).None?
    requires IsWaiting(row.state)
    ensures var k := PollBudget - timeout;
      var r := PollLoop(Store(specs, before + [row]), row.id, observed, timeout);
      && (k >= |observed| ==> r == PollLoop(Store(specs, before + [row]), row.id, observed, timeout - 1))
      && (k < |observed| && observed[k].Seen? && IsWaiting(observed[k].state) ==>
            r == PollLoop(Store(observed[k].specifications,
                                before + [row.(state := observed[k].state,
                                               specificationId := observed[k].specificationId)]),
                          row.id, observed, timeout - 1))
      && (k < |observed| && !(observed[k].Seen? && IsWaiting(observed[k].state)) ==>
            r == Settlement(before, row.id, row.zoneId, observed[k], k + 1))
  {
    var store := Store(specs, before + [row]);
    var k := PollBudget - timeout;
    FiledRequestIsLast(before, row);
    if k < |observed| {
      match observed[k]
      case Vanished =>
        assert Apply(store, row.id, Vanished).requests == before;
      case Seen(state, specificationId, table) =>
        var next := row.(state := state, specificationId := specificationId);
        assert Apply(store, row.id, observed[k]) == Store(table, before + [next]);
        FiledRequestIsLast(before, next);
        if state.Complete? {
          assert Sequences.RemoveAt(before + [next], |before|) == before;
        }
    }
  }

  /** The poll loop times out when no decisive observation comes before
      the budget runs out, leaving the filed request last in the store and
      the table as the last read saw it. */
  lemma {:induction false} PollLoopTimesOut(specs: seq<ServerSpecification>, before: seq<WorldServerRequest>,
                                            row: WorldServerRequest, observed: seq<Poll>, timeout: nat)
    requires timeout <= PollBudget
    requires RequestIndex(before, row.id).None?
    requires IsWaiting(row.state)
    requires var n := FirstDecisive(observed, PollBudget - timeout); n >= |observed| || n >= PollBudget
    ensures TimedOut(PollLoop(Store(specs, before + [row]), row.id, observed, timeout),
                     SpecsAfter(specs, observed, PollBudget - timeout), before, row.id, row.zoneId)
    decreases timeout
  {
    var k := PollBudget - timeout;
    if timeout == 0 {
      assert (before + [row])[..|before|] == before;
    } else {
      PollStep(specs, before, row, observed, timeout);
      if k >= |observed| {
        assert FirstDecisive(observed, k + 1) == k + 1;
        PollLoopTimesOut(specs, before, row, observed, timeout - 1);
      } else {
        assert FirstDecisive(observed, k) == FirstDecisive(observed, k + 1);
        var next := row.(state := observed[k].state, specificationId := observed[k].specificationId);
        PollLoopTimesOut(observed[k].specifications, before, next, observed, timeout - 1);
      }
    }
  }

  /** The poll loop ends as the first decisive observation says when it
      comes within the budget. */
  lemma {:induction false} PollLoopSettles(specs: seq<ServerSpecification>, before: seq<WorldServerRequest>,
                                           row: WorldServerRequest, observed: seq<Poll>, timeout: nat)
    requires timeout <= PollBudget
    requires RequestIndex(before, row.id).None?
    requires IsWaiting(row.state)
    requires var n := FirstDecisive(observed, PollBudget - timeout); n < |observed| && n < PollBudget
    ensures var n := FirstDecisive(observed, PollBudget - timeout);
      PollLoop(Store(specs, before + [row]), row.id, observed, timeout)
        == Settlement(before, row.id, row.zoneId, observed[n], n + 1)
    decreases timeout
  {
    var k := PollBudget - timeout;
    PollStep(specs, before, row, observed, timeout);
    if observed[k].Seen? && IsWaiting(observed[k].state) {
      assert FirstDecisive(observed, k) == FirstDecisive(observed, k + 1);
      var next := row.(state := observed[k].state, specificationId := observed[k].specificationId);
      PollLoopSettles(observed[k].specifications, before, next, observed, timeout - 1);
    } else {
      assert FirstDecisive(observed, k) == k;
    }
  }

  /** The poll loop over a store holding the filed request last, with
      `timeout` reads left: it times out unless a decisive observation comes
      within the budget, and then ends as that observation says. */
  lemma PollLoopOutcome(specs: seq<ServerSpecification>, before: seq<WorldServerRequest>,
                        row: WorldServerRequest, observed: seq<Poll>, timeout: nat)
    requires timeout <= PollBudget
    requires RequestIndex(before, row.id).None?
    requires IsWaiting(row.state)
    ensures var r := PollLoop(Store(specs, before + [row]), row.id, observed, timeout);
      var n := FirstDecisive(observed, PollBudget - timeout);
      && (n >= |observed| || n >= PollBudget ==>
            TimedOut(r, SpecsAfter(specs, observed, PollBudget - timeout), before, row.id, row.zoneId))
      && (n < |observed| && n < PollBudget ==> r == Settlement(before, row.id, row.zoneId, observed[n], n + 1))
  {
    var n := FirstDecisive(observed, PollBudget - timeout);
    if n >= |observed| || n >= PollBudget {
      PollLoopTimesOut(specs, before, row, observed, timeout);
    } else {
      PollLoopSettles(specs, before, row, observed, timeout);
    }
  }

  /** `RequestWorldServerAsync` when no world server of the zone has room:
      exactly one request for the zone is filed under the fresh identifier,
      then read until the first decisive observation or the end of the
      budget, whichever comes first. */
  lemma AllocationOutcome(store: Store, zone: int, id: Guid, observed: seq<Poll>)
    requires FindWorldServer(store.specifications, zone).None?
    requires RequestIndex(store.requests, id).None?
    ensures var r := RequestWorldServer(store, zone, id, observed);
      var n := FirstDecisive(observed, 0);
      && (n >= |observed| || n >= PollBudget ==>
            TimedOut(r, SpecsAfter(store.specifications, observed, 0), store.requests, id, zone))
      && (n < |observed| && n < PollBudget ==> r == Settlement(store.requests, id, zone, observed[n], n + 1))
  {
    PollLoopOutcome(store.specifications, store.requests, NewRequest(id, zone), observed, PollBudget);
  }

  /** A request that nobody answers is read `PollBudget` times and left in
      the store, the table untouched; the call returns `default`. */
  lemma UnansweredTimesOut(store: Store, zone: int, id: Guid)
    requires FindWorldServer(store.specifications, zone).None?
    requires RequestIndex(store.requests, id).None?
    ensures TimedOut(RequestWorldServer(store, zone, id, []), store.specifications, store.requests, id, zone)
  {
    AllocationOutcome(store, zone, id, []);
  }

  /** A request set to `Error` at the first read returns `default` at once,
      after one read, and stays in the store in the `Error` state. */
  lemma ErrorStopsAtOnce(store: Store, zone: int, id: Guid, spec: Guid,
                         table: seq<ServerSpecification>, later: seq<Poll>)
    requires FindWorldServer(store.specifications, zone).None?
    requires RequestIndex(store.requests, id).None?
    ensures RequestWorldServer(store, zone, id, [Seen(Error, spec, table)] + later)
         == Ok(Allocation(None, Store(table, store.requests + [WorldServerRequest(id, zone, Error, spec)]), 1))
  {
    AllocationOutcome(store, zone, id, [Seen(Error, spec, table)] + later);
  }

  /** A request that waits for `n` reads and is then completed by the server
      `spec` returns that server's specification, as the table at that read
      holds it, after `n + 1` reads, and the request is gone: the rows are
      exactly those before the call. When the table holds no such server the
      lookup throws. */
  lemma CompleteReturnsSpecification(store: Store, zone: int, id: Guid, observed: seq<Poll>, n: nat,
                                     spec: Guid, table: seq<ServerSpecification>)
    requires FindWorldServer(store.specifications, zone).None?
    requires RequestIndex(store.requests, id).None?
    requires n < |observed| && n < PollBudget
    requires forall j :: 0 <= j < n ==> observed[j].Seen? && IsWaiting(observed[j].state)
    requires observed[n] == Seen(Complete, spec, table)
    ensures var r := RequestWorldServer(store, zone, id, observed);
      && (SpecificationIndex(table, spec).None? ==> r == Err(SequenceEmpty))
      && (SpecificationIndex(table, spec).Some? ==>
            && r.Ok?
            && r.value.spec.Some? && r.value.spec.value.id == spec && r.value.spec.value in table
            && r.value.store == Store(table, store.requests)
            && r.value.polls == n + 1)
  {
    FirstDecisiveIs(observed, 0, n);
    AllocationOutcome(store, zone, id, observed);
  }

  /** The first decisive observation from `from` is `n` when everything
      between is waiting and `n` is not. */
  lemma {:induction false} FirstDecisiveIs(observed: seq<Poll>, from: nat, n: nat)
    requires from <= n < |observed|
    requires forall j :: from <= j < n ==> observed[j].Seen? && IsWaiting(observed[j].state)
    requires !(observed[n].Seen? && IsWaiting(observed[n].state))
    ensures FirstDecisive(observed, from) == n
    decreases n - from
  {
    if from < n {
      FirstDecisiveIs(observed, from + 1, n);
    }
  }
}

=== FILE: startup.dfy ===
/** The part of server start-up that answers a world-server request
    (Uchu.Core/Server.cs, `StartAsync`): a server started for a request finds
    the first request naming it and marks it complete, which is what the
    requesting process is polling for. */
module Startup {
  import opened Outcomes
  import opened Records
  import opened ServerHelper
  import Sequences

  /** The first request row answered by the server `serverId`. */
  function RequestFor(requests: seq<WorldServerRequest>, serverId: Guid): (r: Option<nat>)
    ensures r.Some? ==> r.value < |requests| && requests[r.value].specificationId == serverId
    ensures r.Some? ==> forall j :: 0 <= j < r.value ==> requests[j].specificationId != serverId
    ensures r.None? <==> forall j :: 0 <= j < |requests| ==> requests[j].specificationId != serverId
  {
    Sequences.FindFirst(requests, (q: WorldServerRequest) => q.specificationId == serverId)
  }

  /** The request-completion step of `StartAsync` for the server `serverId`:
      the first request naming it becomes `Complete`; with none, nothing
      changes. */
  function CompleteOwnRequest(store: Store, serverId: Guid): (r: Store)
    ensures r.specifications == store.specifications
    ensures |r.requests| == |store.requests|
    ensures RequestFor(store.requests, serverId).None? ==> r == store
    ensures RequestFor(store.requests, serverId).Some? ==>
      var i := RequestFor(store.requests, serverId).value;
      && r.requests[i] == store.requests[i].(state := Complete)
      && forall j :: 0 <= j < |r.requests| && j != i ==> r.requests[j] == store.requests[j]
  {
    match RequestFor(store.requests, serverId)
    case None => store
    case Some(i) => store.(requests := store.requests[i := store.requests[i].(state := Complete)])
  }

  /** Completing a request is idempotent: a second start finds the same row
      and leaves it as the first one did. */
  lemma CompleteOwnRequestIdempotent(store: Store, serverId: Guid)
    ensures CompleteOwnRequest(CompleteOwnRequest(store, serverId), serverId) == CompleteOwnRequest(store, serverId)
  {
    var once := CompleteOwnRequest(store, serverId);
    if RequestFor(store.requests, serverId).Some? {
      var i := RequestFor(store.requests, serverId).value;
      assert forall j :: 0 <= j < |once.requests| ==> once.requests[j].specificationId == store.requests[j].specificationId;
      assert RequestFor(once.requests, serverId) == Some(i);
    }
  }

  /** When a started server completes the request a process is waiting on,
      that process's next read returns the server's specification and
      removes the request: the hand-over `RequestWorldServerAsync` waits for. */
  lemma CompletionHandsOver(store: Store, id: Guid, server: Guid, timeout: nat)
    requires 0 < timeout <= PollBudget
    requires RequestIndex(store.requests, id).Some?
    requires RequestFor(store.requests, server) == RequestIndex(store.requests, id)
    requires SpecificationIndex(store.specifications, server).Some?
    ensures var r := PollLoop(CompleteOwnRequest(store, server), id, [], timeout);
      && r.Ok?
      && r.value.spec == Some(store.specifications[SpecificationIndex(store.specifications, server).value])
      && r.value.store.requests == Sequences.RemoveAt(store.requests, RequestIndex(store.requests, id).value)
      && r.value.polls == PollBudget - timeout + 1
  {
    var i := RequestIndex(store.requests, id).value;
    var done := CompleteOwnRequest(store, server);
    assert forall j :: 0 <= j < |done.requests| ==> done.requests[j].id == store.requests[j].id;
    assert RequestIndex(done.requests, id) == Some(i);
    var removed := Sequences.RemoveAt(done.requests, i);
    assert removed == Sequences.RemoveAt(store.requests, i);
  }
}

=== FILE: table.dfy ===
/** A .NET `Dictionary` as the server uses it: entries in insertion order,
    one entry per key, and the indexer assignment `d[k] = v` replacing the
    value of an existing key in place or appending a new entry. No entry is
    ever removed, so enumeration order is insertion order. */
module Table {
  import opened Outcomes

  datatype Entry<K, V> = Entry(key: K, value: V)

  /** The entries of a dictionary, in enumeration order. */
  type Dict<K, V> = seq<Entry<K, V>>

  /** The keys in enumeration order. */
  function Keys<K, V>(d: Dict<K, V>): (ks: seq<K>)
    ensures |ks| == |d|
    ensures forall i :: 0 <= i < |d| ==> ks[i] == d[i].key
  {
    seq(|d|, i requires 0 <= i < |d| => d[i].key)
  }

  /** The values in enumeration order. */
  function Values<K, V>(d: Dict<K, V>): (vs: seq<V>)
    ensures |vs| == |d|
    ensures forall i :: 0 <= i < |d| ==> vs[i] == d[i].value
  {
    seq(|d|, i requires 0 <= i < |d| => d[i].value)
  }

  /** No key occurs twice. */
  predicate DistinctKeys<K(==), V>(d: Dict<K, V>) {
    forall i, j :: 0 <= i < j < |d| ==> d[i].key != d[j].key
  }

  /** `TryGetValue`: the value of the first entry with the key; a hit is
      always a stored entry. */
  function Get<K(==), V>(d: Dict<K, V>, k: K): (r: Option<V>)
    ensures r.Some? ==> Entry(k, r.value) in d
    decreases |d|
  {
    if |d| == 0 then None
    else if d[0].key == k then Some(d[0].value)
    else Get(d[1..], k)
  }

  /** The indexer assignment `d[k] = v`. */
  function Put<K(==), V>(d: Dict<K, V>, k: K, v: V): (r: Dict<K, V>)
    ensures Get(r, k) == Some(v)
    decreases |d|
  {
    if |d| == 0 then [Entry(k, v)]
    else if d[0].key == k then [Entry(k, v)] + d[1..]
    else [d[0]] + Put(d[1..], k, v)
  }

  /** `Get` finds exactly the keys that occur, with a value stored under
      that key. */
  lemma {:induction false} GetSpec<K, V>(d: Dict<K, V>, k: K)
    ensures Get(d, k).None? <==> k !in Keys(d)
    ensures Get(d, k).Some? ==> Entry(k, Get(d, k).value) in d
    decreases |d|
  {
    if |d| > 0 && d[0].key != k {
      GetSpec(d[1..], k);
      assert Keys(d) == [d[0].key] + Keys(d[1..]);
    }
  }

  /** With distinct keys, the value `Get` finds is the one stored at the
      key's position. */
  lemma {:induction false} GetAt<K, V>(d: Dict<K, V>, i: nat)
    requires DistinctKeys(d) && i < |d|
    ensures Get(d, d[i].key) == Some(d[i].value)
    decreases |d|
  {
    if i > 0 {
      assert d[0].key != d[i].key;
      assert d[1..][i - 1] == d[i];
      GetAt(d[1..], i - 1);
    }
  }

  /** Writing one key leaves every other key's lookup as it was. */
  lemma {:induction false} GetPutOther<K, V>(d: Dict<K, V>, k: K, v: V, k': K)
    requires k' != k
    ensures Get(Put(d, k, v), k') == Get(d, k')
    decreases |d|
  {
    if |d| > 0 && d[0].key != k {
      GetPutOther(d[1..], k, v, k');
    }
  }

  /** Writing an existing key keeps the key order. */
  lemma {:induction false} PutExisting<K, V>(d: Dict<K, V>, k: K, v: V)
    requires k in Keys(d)
    ensures Keys(Put(d, k, v)) == Keys(d)
    decreases |d|
  {
    var r := Put(d, k, v);
    if d[0].key == k {
      assert |r| == |d| && forall i :: 0 <= i < |d| ==> r[i].key == d[i].key;
    } else {
      assert k in Keys(d[1..]) by {
        var i :| 0 <= i < |d| && Keys(d)[i] == k;
        assert Keys(d[1..])[i - 1] == k;
      }
      PutExisting(d[1..], k, v);
      var r' := Put(d[1..], k, v);
      assert r == [d[0]] + r';
      assert |r| == |d| && forall i :: 1 <= i < |d| ==> r[i].key == Keys(r')[i - 1];
    }
  }

  /** Writing a new key appends it. */
  lemma {:induction false} PutNew<K, V>(d: Dict<K, V>, k: K, v: V)
    requires k !in Keys(d)
    ensures Put(d, k, v) == d + [Entry(k, v)]
    decreases |d|
  {
    if |d| > 0 {
      assert Keys(d)[0] == d[0].key;
      assert k !in Keys(d[1..]) by {
        assert forall i :: 0 <= i < |d| - 1 ==> Keys(d[1..])[i] == Keys(d)[i + 1];
      }
      PutNew(d[1..], k, v);
      assert d[0].key != k;
      assert Put(d, k, v) == [d[0]] + (d[1..] + [Entry(k, v)]);
      assert [d[0]] + (d[1..] + [Entry(k, v)]) == d + [Entry(k, v)];
    }
  }

  /** After a write, every entry is the written one or was there before. */
  lemma {:induction false} PutEntries<K, V>(d: Dict<K, V>, k: K, v: V)
    ensures forall e :: e in Put(d, k, v) ==> e == Entry(k, v) || e in d
    decreases |d|
  {
    if |d| > 0 && d[0].key != k {
      PutEntries(d[1..], k, v);
      assert forall e :: e in d[1..] ==> e in d;
    } else if |d| > 0 {
      assert forall e :: e in d[1..] ==> e in d;
    }
  }

  /** Writing keeps the keys distinct. */
  lemma PutKeepsDistinct<K, V>(d: Dict<K, V>, k: K, v: V)
    requires DistinctKeys(d)
    ensures DistinctKeys(Put(d, k, v))
  {
    var r := Put(d, k, v);
    if k in Keys(d) {
      PutExisting(d, k, v);
      assert forall i :: 0 <= i < |r| ==> r[i].key == Keys(r)[i] == Keys(d)[i] == d[i].key;
    } else {
      PutNew(d, k, v);
      assert forall i :: 0 <= i < |d| ==> d[i].key == Keys(d)[i] != k;
    }
  }

  /** `if (!outer.ContainsKey(k)) outer[k] = new Dictionary(); outer[k][k2] = v`. */
  function PutNested<K(==), K2(==), V>(outer: Dict<K, Dict<K2, V>>, k: K, k2: K2, v: V): (r: Dict<K, Dict<K2, V>>)
    ensures GetNested(r, k, k2) == Some(v)
  {
    var inner := match Get(outer, k) case Some(t) => t case None => [];
    Put(outer, k, Put(inner, k2, v))
  }

  /** `outer.TryGetValue(k, out var t) && t.TryGetValue(k2, out var v)`. */
  function GetNested<K(==), K2(==), V>(outer: Dict<K, Dict<K2, V>>, k: K, k2: K2): Option<V> {
    match Get(outer, k)
    case None => None
    case Some(inner) => Get(inner, k2)
  }

  /** A nested write leaves every other pair's lookup as it was. */
  lemma GetNestedPutOther<K, K2, V>(outer: Dict<K, Dict<K2, V>>, k: K, k2: K2, v: V, k': K, k2': K2)
    requires k' != k || k2' != k2
    ensures GetNested(PutNested(outer, k, k2, v), k', k2') == GetNested(outer, k', k2')
  {
    var inner := match Get(outer, k) case Some(t) => t case None => [];
    if k' != k {
      GetPutOther(outer, k, Put(inner, k2, v), k');
    } else {
      GetPutOther(inner, k2, v, k2');
    }
  }
}

=== FILE: text.dfy ===
/** The string operations of the command pipeline: `String.Split(char)`,
    its inverse `String.Join`, and lower-casing of ASCII letters. */
module Text {

  /** The position of the first `sep` in `s`, or `|s|` when there is none. */
  function SeparatorAt(s: string, sep: char): (i: nat)
    ensures i <= |s|
    ensures i < |s| ==> s[i] == sep
    ensures forall j :: 0 <= j < i ==> s[j] != sep
    decreases |s|
  {
    if |s| == 0 then 0
    else if s[0] == sep then 0
    else SeparatorAt(s[1..], sep) + 1
  }

  /** `s.Split(sep)`: the pieces between separators, empty pieces included;
      a string without `sep` is one piece. */
  function Split(s: string, sep: char): (parts: seq<string>)
    ensures |parts| >= 1
    ensures forall p :: p in parts ==> sep !in p
    decreases |s|
  {
    var i := SeparatorAt(s, sep);
    if i == |s| then [s]
    else [s[..i]] + Split(s[i + 1..], sep)
  }

  /** `String.Join(sep, parts)`. */
  function Join(parts: seq<string>, sep: char): string
    decreases |parts|
  {
    if |parts| == 0 then ""
    else if |parts| == 1 then parts[0]
    else parts[0] + [sep] + Join(parts[1..], sep)
  }

  /** Splitting loses nothing: joining the pieces gives the string back. */
  lemma {:induction false} JoinSplit(s: string, sep: char)
    ensures Join(Split(s, sep), sep) == s
    decreases |s|
  {
    var i := SeparatorAt(s, sep);
    if i < |s| {
      var rest := Split(s[i + 1..], sep);
      JoinSplit(s[i + 1..], sep);
      var parts := Split(s, sep);
      assert parts == [s[..i]] + rest;
      assert |parts| >= 2 && parts[0] == s[..i] && parts[1..] == rest;
      assert Join(parts, sep) == s[..i] + [sep] + Join(rest, sep);
      assert s == s[..i] + [sep] + s[i + 1..];
    }
  }

  /** Splitting a join of separator-free pieces gives the pieces back. */
  lemma {:induction false} SplitJoin(parts: seq<string>, sep: char)
    requires |parts| >= 1
    requires forall p :: p in parts ==> sep !in p
    ensures Split(Join(parts, sep), sep) == parts
    decreases |parts|
  {
    var s := Join(parts, sep);
    if |parts| == 1 {
      assert sep !in parts[0];
      assert SeparatorAt(s, sep) == |s|;
    } else {
      var head := parts[0];
      assert sep !in head;
      var tail := Join(parts[1..], sep);
      assert s == head + [sep] + tail;
      assert s[|head|] == sep;
      assert forall j :: 0 <= j < |head| ==> s[j] == head[j];
      assert SeparatorAt(s, sep) == |head| by {
        SeparatorFirst(s, sep, |head|);
      }
      assert s[..|head|] == head;
      assert s[|head| + 1..] == tail;
      SplitJoin(parts[1..], sep);
      assert parts == [head] + parts[1..];
    }
  }

  /** The first separator is at `i` when `s[i]` is one and none comes
      before it. */
  lemma SeparatorFirst(s: string, sep: char, i: nat)
    requires i < |s| && s[i] == sep
    requires forall j :: 0 <= j < i ==> s[j] != sep
    ensures SeparatorAt(s, sep) == i
  {
  }

  /** Lower-casing of one character: ASCII upper-case letters map to their
      lower-case forms, everything else is left alone. */
  function LowerChar(c: char): char {
    if 'A' <= c <= 'Z' then (c as int - 'A' as int + 'a' as int) as char else c
  }

  /** `ToLower`, character by character. */
  function ToLower(s: string): (t: string)
    ensures |t| == |s|
    ensures forall i :: 0 <= i < |s| ==> t[i] == LowerChar(s[i])
  {
    seq(|s|, i requires 0 <= i < |s| => LowerChar(s[i]))
  }

  /** A string with no ASCII upper-case letter. */
  predicate IsLower(s: string) {
    forall i :: 0 <= i < |s| ==> !('A' <= s[i] <= 'Z')
  }

  /** Lower-casing yields a lower-case string, is the identity on one, and
      so is idempotent. */
  lemma ToLowerIsLower(s: string)
    ensures IsLower(ToLower(s))
    ensures IsLower(s) ==> ToLower(s) == s
    ensures ToLower(ToLower(s)) == ToLower(s)
  {
  }
}

=== FILE: utils.dfy ===
/** Bounded random identifiers (Uchu.Core/Utils.cs), with C# `long`
    arithmetic written out: unchecked wrap-around, remainder truncating
    toward zero, and the two overflow exceptions of `%` and `Math.Abs`.
    The eight random bytes are taken as a parameter, already read as a
    little-endian `long` (the `draw`). */
module Utils {
  import opened Outcomes

  const MinLong: int := -0x8000_0000_0000_0000
  const MaxLong: int := 0x7FFF_FFFF_FFFF_FFFF
  const TwoTo64: int := 0x1_0000_0000_0000_0000

  /** A 64-bit signed integer. */
  type Long = x: int | MinLong <= x <= MaxLong

  const ObjectIdMin: Long := 1000000000000000000
  const ObjectIdMax: Long := 1999999999999999999
  const SpawnerIdMin: Long := 70000000000000
  const SpawnerIdMax: Long := 79999999999999

  function Abs(x: int): nat {
    if x < 0 then -x else x
  }

  /** Unchecked `long` arithmetic: the result agrees with `x` modulo 2^64. */
  function Wrap(x: int): (r: Long)
    ensures (x - r) % TwoTo64 == 0
    ensures MinLong <= x <= MaxLong ==> r == x
  {
    var m := (x - MinLong) % TwoTo64;
    assert x - (m + MinLong) == TwoTo64 * ((x - MinLong) / TwoTo64);
    m + MinLong
  }

  /** The mathematical value of C#'s `a % b`: the remainder has the sign of
      the dividend and is smaller than the divisor in magnitude. */
  function Rem(a: int, b: int): (r: int)
    requires b != 0
    ensures Abs(r) < Abs(b)
    ensures a >= 0 ==> 0 <= r <= a
    ensures a < 0 ==> a <= r <= 0
    ensures 0 <= a < Abs(b) ==> r == a
    ensures (a - r) % b == 0
  {
    var m := Abs(a) % Abs(b);
    MagnitudeRem(a, b);
    if a >= 0 then m else -m
  }

  /** The remainder of the magnitudes, signed like the dividend, differs from it by a multiple of `b`. */
  lemma MagnitudeRem(a: int, b: int)
    requires b != 0
    ensures Abs(a) % Abs(b) <= Abs(a)
    ensures Abs(a) < Abs(b) ==> Abs(a) % Abs(b) == Abs(a)
    ensures (a - (if a >= 0 then Abs(a) % Abs(b) else -(Abs(a) % Abs(b)))) % b == 0
  {
    var n := Abs(a);
    var m := n % Abs(b);
    var q := n / Abs(b);
    NaturalRem(n, Abs(b));
    var k := if a >= 0 then q else -q;
    assert a - (if a >= 0 then m else -m) == k * Abs(b);
    MultipleRem(k, b);
  }

  /** Euclidean division of a natural number by a positive one. */
  lemma NaturalRem(n: nat, d: int)
    requires d > 0
    ensures n % d <= n
    ensures n < d ==> n % d == n
    ensures n - n % d == (n / d) * d
  {
    if n < d {
      assert n == d * 0 + n;
    }
  }

  /** A multiple of `b`, in either sign, leaves no remainder. */
  lemma MultipleRem(k: int, b: int)
    requires b != 0
    ensures (k * Abs(b)) % b == 0
  {
    var x := k * Abs(b);
    var d := (if b > 0 then k else -k) - x / b;
    assert x == b * (if b > 0 then k else -k);
    assert x % b == b * d;
    ProductBound(b, d);
  }

  /** A nonzero multiple of `b` is at least as large as `b` in magnitude. */
  lemma {:induction false} ProductBound(b: int, d: int)
    ensures d != 0 ==> Abs(b * d) >= Abs(b)
    decreases Abs(d)
  {
    if d > 1 {
      ProductBound(b, d - 1);
      assert b * d == b * (d - 1) + b;
    } else if d < -1 {
      ProductBound(b, d + 1);
      assert b * d == b * (d + 1) - b;
    }
  }

  /** `a % b` on two `long`s: zero divisors and `long.MinValue % -1` throw. */
  function LongRem(a: Long, b: Long): (r: Result<Long>)
    ensures b == 0 <==> r == Err(DivideByZero)
    ensures r.Ok? ==> Abs(r.value) < Abs(b)
    ensures r.Err? ==> b == 0 || (a == MinLong && b == -1)
    ensures a == MinLong && b == -1 ==> r == Err(Overflow)
    ensures r.Ok? ==> r.value == Rem(a, b) && (a - r.value) % b == 0
  {
    if b == 0 then Err(DivideByZero)
    else if a == MinLong && b == -1 then Err(Overflow)
    else Ok(Rem(a, b))
  }

  /** `Math.Abs` on a `long`: throws on `long.MinValue`, whose magnitude does not fit. */
  function LongAbs(x: Long): (r: Result<Long>)
    ensures r.Err? <==> x == MinLong
    ensures r.Ok? ==> r.value == Abs(x)
  {
    if x == MinLong then Err(Overflow) else Ok(Abs(x))
  }

  /** `RandomLong(min, max)` for the draw `draw`: `|draw % (max - min)| + min`. */
  function RandomLong(min: Long, max: Long, draw: Long): (r: Result<Long>)
    ensures min == max ==> r == Err(DivideByZero)
  {
    var span := Wrap(max - min);
    var rem :- LongRem(draw, span);
    var abs :- LongAbs(rem);
    Ok(Wrap(abs + min))
  }

  /** For every `min < max` and every draw, the result lies in `[min, max)`;
      the one exception is the widest range with the draw `long.MinValue`,
      where the subtraction wraps to -1 and `long.MinValue % -1` throws.
      When `max - min` fits in a `long` the remainder is below it, so
      `Math.Abs` never meets `long.MinValue` and `+ min` cannot overflow; when
      it wraps, the wrapped divisor is even smaller in magnitude. */
  lemma RandomLongInRange(min: Long, max: Long, draw: Long)
    requires min < max
    requires !(min == MinLong && max == MaxLong && draw == MinLong)
    ensures RandomLong(min, max, draw).Ok?
    ensures min <= RandomLong(min, max, draw).value < max
  {
    var span := Wrap(max - min);
    if max - min <= MaxLong {
      assert span == max - min;
    } else {
      assert span == max - min - TwoTo64;
      assert span == -1 ==> min == MinLong && max == MaxLong;
    }
    var rem := Rem(draw, span);
    assert Abs(rem) < max - min;
  }

  /** The widest range with the draw `long.MinValue` is the one input on
      which `RandomLong` throws for `min < max`. */
  lemma RandomLongWidestRangeThrows()
    ensures RandomLong(MinLong, MaxLong, MinLong) == Err(Overflow)
  {
    assert Wrap(MaxLong - MinLong) == -1;
  }

  /** Every value of `[min, max)` is produced by some draw, when the range
      width fits in a `long`. */
  lemma RandomLongCoversRange(min: Long, max: Long, v: Long)
    requires min <= v < max
    requires max - min <= MaxLong
    ensures exists draw: Long :: RandomLong(min, max, draw) == Ok(v)
  {
    var draw: Long := v - min;
    assert Wrap(max - min) == max - min;
    assert Rem(draw, max - min) == draw;
    assert RandomLong(min, max, draw) == Ok(v);
  }

  /** A fresh object id lies in `[ObjectIdMin, ObjectIdMax)`. */
  function GenerateObjectId(draw: Long): (id: Long)
    ensures ObjectIdMin <= id < ObjectIdMax
  {
    RandomLongInRange(ObjectIdMin, ObjectIdMax, draw);
    RandomLong(ObjectIdMin, ObjectIdMax, draw).value
  }

  /** A fresh spawner id lies in `[SpawnerIdMin, SpawnerIdMax)`. */
  function GenerateSpawnerId(draw: Long): (id: Long)
    ensures SpawnerIdMin <= id < SpawnerIdMax
  {
    RandomLongInRange(SpawnerIdMin, SpawnerIdMax, draw);
    RandomLong(SpawnerIdMin, SpawnerIdMax, draw).value
  }
}
